=== FILE: README.md ===
# Mailing API core, modelled in Dafny

This project models the core of the mailing API, a transactional-email
service. Tenants ("clients") send mails through reusable templates. A
periodic job hands pending mails to SendGrid and retries failures with a
linear back-off. The model covers five parts:

- **Mail retry state machine and dispatch pass** (`Mails`, `Dispatch`):
  - the `mark_retry` / `mark_as_sent` transitions;
  - the selection filter and id order of `process_pending_emails`;
  - what `_send_email` does with each provider outcome;
  - the pass as a loop (`Dispatch.RunPass`), proved equal to a functional
    definition.
- **Template composition and strict rendering** (`Jinja`): `build_dic`,
  `validate` and `render` of `JinjaRender`. The template engine is
  uninterpreted: every result holds for any engine.
- **Template and client validators** (`TemplateWrites`, `Templates`,
  `Clients`): the write serializers' checks in source order, the table
  constraints, and the cascading delete along `parent`.
- **Retention purge** (`Maintenance`): the single `DELETE` statement of
  `EmailsMaintenanceService.purge`.
- **Authorization** (`Authentication`, `ScopeCheck`, `Settings`):
  - where `OAuth2Authentication.authenticate` takes the token from;
  - how `oauth2_scope_required` normalises a route and decides;
  - the configured endpoint table and supported locales.

Shared pieces live in `Common` (`Option`, `Result`, the `is_empty` notion)
and `Text` (whitespace `split()`, `strip()`, ASCII lower-casing,
`" ".join`, `str.replace`).

Time is integer seconds. The clock, the SendGrid client, the template
engine, Django's `simplify_regex` and the process environment are
parameters.

Some behaviours of the code are easy to miss, and the model keeps them as
written:

- A run selects every eligible mail, with no claim step and no cap on how
  many it sends. `batch` only names the run (`Dispatch.BatchIsOnlyAName`).
- An exception raised while building or sending a mail is recorded as a
  retry, but `_send_email` still returns `True`. Such mails are counted
  together with delivered ones.
- A mail lacking a required field raises a `ValidationError`, which nothing
  catches. The pass stops at that mail (`Dispatch.PendingPassAborted`).
- The parent of a template must be a root, so the validator on its own
  limits the hierarchy to two levels. On update it does not check whether
  the row being updated already has children, so a three-level chain can be
  built (`TemplateWrites.UpdateMayDeepenHierarchy`).
- On update the activation guard looks at the body fields of the request
  and of the stored row, not at the row being stored. An update that
  activates a row with content and blanks both of its bodies is accepted
  (`TemplateWrites.ActivationGuardReadsStoredRow`).

## Model

| member | source | states |
|---|---|---|
| Text.Split | api/security/oauth2_scope_required.py:63 | `split()` yields non-empty pieces without whitespace |
| Text.SplitAtSpace | api/security/oauth2_authentication.py:16 | splitting two texts glued by whitespace concatenates their pieces |
| Text.SplitSingleWord | api/security/oauth2_authentication.py:16 | a whitespace-free word splits into itself alone |
| Text.JoinSpaceKeepsWords | api/security/oauth2_scope_required.py:63 | every word of every joined piece is a word of the space-joined text |
| Text.Lower | api/security/oauth2_authentication.py:25 | ASCII lower-casing keeps the length and maps each character |
| Text.LowerIdempotent | api/security/oauth2_scope_required.py:31 | lower-casing twice is lower-casing once |
| Text.Strip | api/models/mail_template.py:10-14 | the stripped text is empty iff the text is all whitespace, and otherwise starts and ends with a non-space character |
| Text.StripKeepsTrimmed | api/models/mail_template.py:10-14 | a text without surrounding whitespace is its own strip |
| Text.StripIdempotent | api/models/mail_template.py:10-14 | stripping twice is stripping once |
| Text.ReplaceAfterLiteral | api/security/oauth2_scope_required.py:30 | `replace` copies a text free of the pattern's first character and replaces the occurrence after it |
| Text.ReplaceWithoutOccurrence | api/security/oauth2_scope_required.py:30 | `replace` leaves a text without the pattern's first character unchanged |
| Clients.Validate | api/serializers/client.py:22-42 | succeeds iff the id is non-empty and no other row holds it; an empty id gives 'Client Id is not set.'; the `type` check never fires |
| Clients.CheckField | api/models/client.py:6 | the field layer passes iff `client_id` is given on add, and when given is non-blank, at most 255 long and held by no other row; absent on add, blank and duplicate have their own errors |
| Clients.Write | api/serializers/client.py:22-42 | a write succeeds iff a `client_id` is given whose stripped form is valid and held by no other row, and then stores exactly that stripped id; an absent id is 'required' on add and 'Client Id is not set.' on update; a blank one is refused as blank |
| Clients.WhitespaceIdIsBlank | api/models/client.py:6 | a whitespace-only `client_id` is refused as blank on add and on update |
| Clients.WriteNeverReportsTaken | api/serializers/client.py:34-40 | through a write 'Already exist a Client Id.' is never reported, and 'Client Id is not set.' only for an update without `client_id` |
| Clients.WritePreservesInvariant | api/models/client.py:6 | adding or renaming keeps every `client_id` non-blank, at most 255 long and unique |
| Clients.RenameIgnoresOwnRow | api/serializers/client.py:34-40 | on update the row's own id is not a duplicate |
| Clients.DuplicateRefused | api/serializers/client.py:34-40 | an id held by another row is refused as 'Already exist a Client Id.' |
| Clients.StringFormsDistinct | api/models/client.py:8-9 | rows with unique ids have distinct string forms |
| Templates.NewTemplate | api/models/mail_template.py:10-20 | a fresh row takes the declared defaults: no bodies, `max_retries` 1, inactive, no parent, no allowed clients |
| Templates.IdentifiersUniqueImpliesPairsUnique | api/models/mail_template.py:11 | a unique identifier makes the identifier/locale pair unique |
| Templates.Save | api/models/mail_template.py:11 | saving succeeds iff no other row has the identifier, and changes only the saved row |
| Templates.SavePreservesUniqueIdentifiers | api/models/mail_template.py:11 | a successful save keeps identifiers unique |
| Templates.Descendants | api/models/mail_template.py:19 | the closure contains the start set, is closed under children, and holds only rows reached through `parent` |
| Templates.DescendantsLeast | api/models/mail_template.py:19 | the closure is the least set of rows holding the start set and closed under children |
| Templates.DeleteCascades | api/models/mail_template.py:19 | delete keeps exactly the rows that do not descend from the deleted row, each unchanged, and leaves no dangling parent |
| Jinja.BuildDic | api/utils/jinja_render.py:32-39 | the child is under `index.html`; `layout.html` is present iff the parent text is non-empty |
| Jinja.Validate | api/utils/jinja_render.py:17-29 | succeeds iff the entry parses and, when a layout is offered, references `layout.html`; otherwise the extends error |
| Jinja.NoLayoutNoExtendsCheck | api/utils/jinja_render.py:24-27 | without a layout only a syntax error can refuse |
| Jinja.FirstMissing | api/utils/jinja_render.py:59-63 | reports the first undeclared variable missing from the payload, or none iff all are present |
| Jinja.LayoutOffered | api/utils/jinja_render.py:48-49 | only a blank parent HTML is ever offered; a real parent HTML never is |
| Jinja.Render | api/utils/jinja_render.py:41-67 | blank HTML is refused; success means the child alone validates, and a validation error of the child alone is passed through, whatever the parent |
| Jinja.RenderWith | api/utils/jinja_render.py:41-67 | blank HTML is refused; a validation error is passed through; a valid set with every variable supplied (or in lenient mode) renders to the engine's evaluation; a missing-variable error names a real missing variable |
| Jinja.EmptyHtmlRefused | api/utils/jinja_render.py:45-46 | a template without HTML is refused whatever the engine |
| Jinja.RenderIgnoresPlainContent | api/utils/jinja_render.py:41-43 | the plain body plays no part in rendering |
| Jinja.StrictMissingStopsBeforeEvaluation | api/utils/jinja_render.py:54-65 | strict mode with a missing variable fails before evaluation, whatever the evaluator |
| Jinja.LenientRendersDirectly | api/utils/jinja_render.py:54-67 | non-strict rendering of a valid set is the engine's evaluation |
| Jinja.RenderNeverLoadsLayout | api/utils/jinja_render.py:48-49 | as written, the document set never contains `layout.html` |
| Jinja.RenderDropsRealLayout | api/utils/jinja_render.py:48-49 | a parent with real HTML is not offered to an extending child |
| Jinja.IntendedLayout | api/utils/jinja_render.py:48-49 | the corrected choice offers the parent's HTML iff there is a parent |
| Jinja.RenderWithLayoutLoadsParent | api/utils/jinja_render.py:48-51 | with the corrected choice the parent layout reaches the engine, and a non-extending child is refused |
| TemplateWrites.Clean | api/models/mail_template.py:10-14 | the field layer strips `from_email`, `identifier`, `subject` and both bodies, and changes nothing else |
| TemplateWrites.CleanIdempotent | api/models/mail_template.py:10-14 | cleaning a cleaned request changes nothing |
| TemplateWrites.CheckClients | api/serializers/mail_template.py:49 | `allowed_clients` passes iff it is absent or every key names a client |
| TemplateWrites.CheckText | api/models/mail_template.py:10-12 | a text column passes iff it is given on create, and when given is non-blank and within its length; absent on create and blank have their own errors |
| TemplateWrites.CheckFields | api/models/mail_template.py:10-12 | the field layer passes iff `from_email`, `identifier` and `subject` pass their column checks and a given identifier is a slug held by no other row; a passing create builds a well-formed row and a passing update keeps rows well-formed |
| TemplateWrites.ResolveParent | api/serializers/mail_template.py:48 | a parent key resolves iff it names a row |
| TemplateWrites.ChannelCheck | api/serializers/mail_template.py:86-94 | a non-empty body passes iff its document set with the parent body of the same channel validates |
| TemplateWrites.Validate | api/serializers/mail_template.py:78-118 | succeeds iff both bodies validate, the locale is supported, the parent is a root, a create names `from_email` and `identifier`, and no other row holds the pair; each failure gives the message of the first failing check in source order |
| TemplateWrites.FromData | api/serializers/mail_template.py:66 | a created row holds every given field, and each absent optional field takes its declared default: empty bodies, `max_retries` 1, inactive, no parent, no clients, no locale |
| TemplateWrites.Create | api/serializers/mail_template.py:51-66 | absent `is_active` means inactive; activation needs a body and an active parent, with those errors in that order; an accepted create stores the request's row |
| TemplateWrites.MinimalCreateIsNewTemplate | api/models/mail_template.py:10-20 | a create naming only sender, identifier and subject stores the declared fresh row |
| TemplateWrites.Apply | api/serializers/mail_template.py:76 | each given field replaces the stored one, and each absent field keeps it |
| TemplateWrites.Update | api/serializers/mail_template.py:68-76 | refused iff activation is asked with no body in the request or the row; otherwise the stored row with the given fields replaced |
| TemplateWrites.Admit | api/serializers/mail_template.py:44-118 | a resolved request is admitted iff its clients, its columns and `validate` all pass; an unknown client is reported first, then a column error |
| TemplateWrites.Commit | api/serializers/mail_template.py:51-76 | storing succeeds iff `create`/`update` builds a row and the save accepts it, and then the table is the old one with that row at the written key |
| TemplateWrites.Write | api/serializers/mail_template.py:44-122 | an unknown parent is refused; otherwise a write succeeds iff the stripped request is admitted and committed, and the result is the commit; a success keeps every other row |
| TemplateWrites.EmptyUpdateKeepsRow | api/serializers/mail_template.py:68-76 | an update naming no field stores the row unchanged |
| TemplateWrites.UpdateIdempotent | api/serializers/mail_template.py:68-76 | repeating an update stores the same row, and is accepted unless the stored row is active without a body |
| TemplateWrites.ActivationGuardReadsStoredRow | api/serializers/mail_template.py:71-75 | activating while blanking both bodies is accepted once and refused on repetition |
| TemplateWrites.MandatoryOnCreateOnly | api/serializers/mail_template.py:104-108 | on update leaving out `from_email` never changes the verdict, and with no identifier only bodies, locale and parent decide |
| TemplateWrites.CreateNeedsFromEmail | api/serializers/mail_template.py:104-105 | on create a missing `from_email` is refused |
| TemplateWrites.CreateNeedsSubject | api/models/mail_template.py:12 | a create with a valid sender and identifier but no subject is refused as a required field |
| TemplateWrites.OwnRowNotDuplicate | api/serializers/mail_template.py:110-116 | an updated row's own identifier/locale pair does not count against it: only bodies, locale and parent decide |
| TemplateWrites.WhitespaceBodiesDoNotActivate | api/serializers/mail_template.py:52-62 | bodies of whitespace alone are stripped to nothing, so they cannot create an active template |
| TemplateWrites.WriteKeepsClientsKnown | api/serializers/mail_template.py:49 | every accepted write keeps all rows' allowed clients among the existing clients |
| TemplateWrites.WriteKeepsRowsWellFormed | api/models/mail_template.py:10-12 | every accepted write keeps all rows' sender, identifier and subject within their column constraints |
| TemplateWrites.ReparentAccepted | api/serializers/mail_template.py:100-102 | an update naming only a root parent is accepted and changes only the updated row's parent |
| TemplateWrites.CreatePreservesInvariants | api/serializers/mail_template.py:99-116 | a successful create keeps identifiers and pairs unique, parents existing and parents roots |
| TemplateWrites.UpdateMayDeepenHierarchy | api/serializers/mail_template.py:100-102 | an accepted update can give a parent to a row that has children |
| Mails.NewMail | api/models/mail.py:9-24 | a fresh mail has no retries, no delivery, no retry date and no error |
| Mails.MarkRetry | api/models/mail.py:26-30 | the count rises by one iff it is below the cap, never past the cap; a counted retry stores the error and the next date `retries` hours ahead; otherwise the mail is unchanged; delivery is never touched |
| Mails.MarkAsSent | api/models/mail.py:32-33 | the delivery time is stamped and nothing else changes |
| Mails.MarkRetryAtCapIsNoop | api/models/mail.py:26-30 | at or above the cap `mark_retry` changes nothing |
| Mails.MarkRetryBelowCap | api/models/mail.py:26-30 | below the cap exactly the count, error and next date change, the next date `retries` hours ahead |
| Mails.MarkAsSentOnlyStamps | api/models/mail.py:32-33 | `mark_as_sent` stamps the time and changes nothing else |
| Mails.RetriesStayBounded | api/models/mail.py:26-30 | over any failures the count stays within the cap, never decreases, equals min(cap, start + failures), and delivery is untouched |
| Mails.ExhaustedIsFrozen | api/models/mail.py:27 | once the cap is reached further failures change nothing |
| Dispatch.EligibleIds | api/services/sendgrid_email_service.py:28-33 | exactly the unsent mails with no future retry and fewer retries than their template allows |
| Dispatch.SortedIds | api/services/sendgrid_email_service.py:33 | a strictly ascending list of exactly the given ids |
| Dispatch.MissingFieldOf | api/services/sendgrid_email_service.py:44-51 | no field is missing iff subject, sender, recipient and some body are present |
| Dispatch.SendEmail | api/services/sendgrid_email_service.py:41-92 | refused iff a field is missing; otherwise the result reports accepted statuses and exceptions, and the template is kept |
| Dispatch.ValidationPrecedesProvider | api/services/sendgrid_email_service.py:44-51 | a refused mail is refused whatever the provider does |
| Dispatch.OutcomeMapping | api/services/sendgrid_email_service.py:75-92 | 200/202 marks sent and returns true; another status retries and returns false; an exception retries and returns true |
| Dispatch.RunPass | api/services/sendgrid_email_service.py:28-35 | the loop computes the functional pass |
| Dispatch.ProcessPendingEmailsLoop | api/services/sendgrid_email_service.py:22-39 | selection then loop equals the functional `process_pending_emails` |
| Dispatch.PassFrame | api/services/sendgrid_email_service.py:28-35 | a pass keeps the rows and leaves unlisted rows unchanged |
| Dispatch.PassFinishesIff | api/services/sendgrid_email_service.py:28-51 | a pass completes iff every listed mail has its fields |
| Dispatch.PassFinishedCounts | api/services/sendgrid_email_service.py:28-35 | a completed pass hands over the listed mails in order and counts the reported outcomes |
| Dispatch.PassFinishedRows | api/services/sendgrid_email_service.py:28-35 | after a completed pass each listed row holds its own attempt's result |
| Dispatch.PassAborted | api/services/sendgrid_email_service.py:28-51 | a stopped pass stopped at the first incomplete mail, after exactly the mails before it, with that row unchanged |
| Dispatch.CountReportedIsCardinality | api/services/sendgrid_email_service.py:34-35 | over distinct mails the count is the number of distinct mails with a reported outcome |
| Dispatch.PendingIdsWellFormed | api/services/sendgrid_email_service.py:28-33 | the selected list is repeat-free, exists in the table and is eligible |
| Dispatch.AllListedFields | api/services/sendgrid_email_service.py:44-51 | checking every listed row is checking every row of the listed set |
| Dispatch.ReportedSetOfList | api/services/sendgrid_email_service.py:34-35 | the counted positions of an ordered list are the counted members of its set |
| Dispatch.AbortedAtSmallest | api/services/sendgrid_email_service.py:33 | on an ascending list the stop is at the smallest incomplete id, after exactly the smaller ids |
| Dispatch.PrefixIsBelow | api/services/sendgrid_email_service.py:33 | the first k ids of an ascending list are exactly the listed ids below the k-th |
| Dispatch.PendingPassCompletes | api/services/sendgrid_email_service.py:28-51 | `process_pending_emails` completes iff no eligible mail lacks a field |
| Dispatch.FinishedOverList | api/services/sendgrid_email_service.py:28-35 | a completed pass over an ascending list hands over exactly the listed set in order and counts its members with a reported outcome |
| Dispatch.PendingPassFinished | api/services/sendgrid_email_service.py:22-39 | a completed run hands over every eligible mail in ascending id order and returns the number of eligible mails with a reported outcome |
| Dispatch.PendingPassAborted | api/services/sendgrid_email_service.py:28-51 | a stopped run stops at the smallest incomplete eligible id, after exactly the smaller eligible ids, leaving that row unchanged |
| Dispatch.PendingPassEffects | api/services/sendgrid_email_service.py:28-35 | a run keeps the rows, leaves non-eligible mails alone, and stores each attempt's result |
| Dispatch.FinishedMailNeverSelected | api/services/sendgrid_email_service.py:29-33 | a delivered or exhausted mail is never selected again, after any failures and at any time |
| Dispatch.FreshMailEligible | api/services/sendgrid_email_service.py:29-33 | a fresh mail is selected iff its template exists and allows an attempt |
| Dispatch.BatchIsOnlyAName | api/services/sendgrid_email_service.py:22-39 | the batch argument does not affect the run |
| Dispatch.TwoFailuresExhaust | api/models/mail.py:26-30 | with a cap of 2, two rejections wait 1 h then 2 h, and then the mail is never offered again, keeping the second error |
| Maintenance.Purge | api/services/emails_maintenance_service.py:17-19 | exactly the delivered rows created before the cutoff are removed; others are unchanged |
| Maintenance.PurgeKeepsUndelivered | api/services/emails_maintenance_service.py:18 | an undelivered mail is never purged; a delivered one is kept iff created at or after the cutoff |
| Maintenance.PurgeIdempotent | api/services/emails_maintenance_service.py:17-19 | purging twice equals purging once |
| Maintenance.LongerRetentionKeepsMore | api/services/emails_maintenance_service.py:18 | a longer retention period keeps a superset |
| Maintenance.PurgeLeavesQueueAlone | api/services/emails_maintenance_service.py:18 | the purge changes neither the eligible set nor any eligible row |
| Authentication.Authenticate | api/security/oauth2_authentication.py:14-34 | fails iff the header has exactly one or more than two pieces; a bearer header's token is validated; otherwise the form parameter, else the query parameter, is validated; anonymous iff no header token and no parameter |
| Authentication.OtherSchemeFallsBackToQuery | api/security/oauth2_authentication.py:25-30 | a two-piece header with another scheme is ignored and the query parameter is validated |
| Authentication.BearerHeaderWins | api/security/oauth2_authentication.py:25-26 | `<bearer in any case> <token>` validates exactly the token, whatever the parameters |
| Authentication.LoneWordRefused | api/security/oauth2_authentication.py:18-20 | a one-word header is refused with 'No credentials provided.' |
| Authentication.FormBeforeQuery | api/security/oauth2_authentication.py:27-30 | without a header the form parameter wins over the query parameter |
| ScopeCheck.Span | api/security/oauth2_scope_required.py:12 | the longest matching prefix, stopped by a non-matching character |
| ScopeCheck.NameThenClose | api/security/oauth2_scope_required.py:12 | a `\w+>` match ends with `>` and yields the name before it |
| ScopeCheck.ComponentAt | api/security/oauth2_scope_required.py:11-13 | a matched component starts with `<`, ends with `>`, and has a non-empty name |
| ScopeCheck.SubstituteParameters | api/security/oauth2_scope_required.py:29 | substitution never lengthens the path and leaves a path without `<` unchanged |
| ScopeCheck.SubstituteSkipsChar | api/security/oauth2_scope_required.py:29 | a character other than `<` is copied |
| ScopeCheck.SubstituteAfterLiteral | api/security/oauth2_scope_required.py:29 | a `<`-free prefix is copied unchanged |
| ScopeCheck.SpanOfRun | api/security/oauth2_scope_required.py:12 | the span of a run followed by a stop character is the run's length |
| ScopeCheck.NameThenCloseMatches | api/security/oauth2_scope_required.py:12 | `name>` is matched in full |
| ScopeCheck.ConverterComponent | api/security/oauth2_scope_required.py:11-13 | `<converter:name>` becomes `{name}` |
| ScopeCheck.PlainComponent | api/security/oauth2_scope_required.py:11-13 | `<name>` becomes `{name}` |
| ScopeCheck.IntPkComponent | api/security/oauth2_scope_required.py:11-13 | `<int:pk>` becomes `{pk}` |
| ScopeCheck.DetailRouteKey | api/security/oauth2_scope_required.py:27-30 | `prefix<int:pk>suffix` normalises to `prefix{id}suffix` |
| ScopeCheck.Decide | api/security/oauth2_scope_required.py:37-66 | granted iff token, path entry, method entry and a non-empty required scope exist and the scope sets intersect; each denial holds exactly when the checks before it pass and its own fails |
| ScopeCheck.MethodCaseIgnored | api/security/oauth2_scope_required.py:31 | the method is looked up lower-cased, so its case never changes the decision |
| ScopeCheck.ConfigurationDenialsIgnoreToken | api/security/oauth2_scope_required.py:37-53 | every denial before the scope comparison is independent of the token's contents |
| ScopeCheck.MoreScopesKeepGrant | api/security/oauth2_scope_required.py:63 | adding scopes to a token never revokes a grant |
| ScopeCheck.JoinedScopesPass | api/security/oauth2_scope_required.py:55-64 | a token holding the joined configured scopes passes every endpoint whose scope names a word |
| ScopeCheck.BlankRequiredScopeNeverGrants | api/security/oauth2_scope_required.py:51-66 | a required scope naming no word is never granted: refused as missing if `is_empty` holds of it, otherwise as a mismatch |
| ScopeCheck.SpaceNamesNoScope | api/security/oauth2_scope_required.py:63 | a single space splits into no scope words |
| Settings.Entry | backend/settings.py:294-304 | an endpoint entry is non-empty and requires its scope setting |
| Settings.BuildEntries | backend/settings.py:292-391 | each table entry comes from a row with that path and method, and each row has its entry |
| Settings.EntriesReadScopeVariables | backend/settings.py:292-391 | every entry built from the rows (for the table's own rows: every configured entry) is non-empty and requires the value of its row's scope variable |
| Settings.UnsetScopesRefuseAll | backend/settings.py:292-391 | with none of the rows' scope variables set, every endpoint built from them refuses for lack of a required scope |
| Settings.JoinedRowScopesPass | backend/settings.py:292-391 | a token holding every row's scopes passes every entry built from the rows, so one holding every configured scope passes every configured endpoint |

## Left out

- Views, URL routing and pagination are not modelled. `Settings.Rows` lists the endpoint keys instead.
- The GitHub/VCS history store, the admin site and the cron jobs (with their `FileLock`) are not modelled.
- The mail serializers and `render_subject` are not modelled.
- Logging is not modelled.
- Only the keys of `SUPPORTED_LOCALES` are kept. `TemplateWrites.Validate` receives them as its `locales` argument.
- Several collaborators are parameters:
  - Django's `simplify_regex`: `ScopeCheck.Authorize` takes `simplify`, because its source is not part of this model.
  - The token introspection service: `validate` in `Authentication.Authenticate`.
  - The SendGrid client: `provider` in `Dispatch`.
  - The Jinja engine: `Jinja.Engine`.
  - The environment: `Settings.Environment`.
- `is_empty` (api/utils/empty_str.py) is not part of this model. It is taken to be true of `None` and of the empty string.
- Common.IsEmpty: is taken to be false of every other string, including whitespace-only ones. Every use of it in the model follows from that choice. `ScopeCheck.BlankRequiredScopeNeverGrants` states its refusal for both possible answers.
- TemplateWrites.CheckFields: does not check the email syntax of `from_email`; an `EmailField` also refuses a malformed address. Only length and blankness are modelled.
- TemplateWrites.CheckFields: reports the first failing field. The framework collects the errors of every field together.
- Clients.CheckField: reports the first failing check (blank, then too long, then not unique). The framework runs every validator of the field and reports all their errors together. The accept/refuse decision is the same.
- TemplateWrites.Admit: reports one error. The framework reports the errors of every field together, so an unknown client and a bad column would both appear.
- Client rows deleted after a template names them are not modelled. `TemplateWrites.WriteKeepsClientsKnown` assumes the client set does not shrink.
- ScopeCheck.NormalizePath, ScopeCheck.Authorize and Templates.Delete carry no contract of their own. They are stated by `ScopeCheck.DetailRouteKey`, `ScopeCheck.SubstituteParameters` and the component lemmas; by `ScopeCheck.MethodCaseIgnored`; and by `Templates.DeleteCascades`.
- Dispatch.Pass and Dispatch.ProcessPendingEmails carry no contract of their own. Their behaviour is stated by the `Dispatch.Pass*` and `Dispatch.PendingPass*` lemmas.
- `MailTemplate.has_parent`, `get_parent_html_content` and the `locale` column are read by the code but are not in the model class shown.
  - `has_parent` is modelled as "has a parent".
  - `get_parent_html_content()` is modelled as the parent's `html_content`.
  - `locale` is an optional field.
- Dispatch.SendEmail: uses the pass's single clock reading for every stamp. The source reads `utcnow()` again inside each `mark_retry` and `mark_as_sent`.
- Mails.MarkRetry: takes the template's `max_retries` as an argument rather than through the foreign key.
- Jinja.RenderWith: does not state that provided values appear in the rendered output. Evaluation belongs to the uninterpreted engine, so nothing about its output can be proved.
- Timestamps are integer seconds, without microseconds or time zones. `DATE_SUB` is modelled as subtracting `days * 86400`.
- ScopeCheck.IsWordChar: `\w` is modelled as ASCII letters, digits and underscore. Python's `\w` also matches non-ASCII letters and digits in route names.
- ScopeCheck.Authorize: lower-cases the HTTP method with ASCII rules. Python's `str.lower()` is Unicode-aware, which matters only for non-ASCII method names.
- Authentication.Authenticate: header bytes and parameter strings are both modelled as strings.
- Database transactions are not modelled separately: each attempt is one atomic table update, and validation errors raise before any write.
- Persistence failures are not modelled.
- Templates.Delete: follows only the `parent` cascade. Mails keep a template key without a row (`DO_NOTHING`), and the dispatch join then drops them (`Dispatch.Eligible`).
- The `required_scope=` argument that the views pass to `oauth2_scope_required` is not modelled. The decorator shown takes no parameters and reads the endpoint table instead.
- Concrete route keys: `ScopeCheck.DetailRouteKey` states the rewrite for any prefix and suffix. It is not instantiated on the literal routes of the table.

## Findings

| source | as written | input that shows it | evidently intended | confidence | as-written member | corrected member |
|---|---|---|---|---|---|---|
| api/utils/jinja_render.py:48-49 | the parent's HTML is offered as `layout.html` only when it is empty, and `build_dic` then drops an empty layout, so a layout never reaches the engine | parent HTML `<html>{% block content %}{% endblock %}</html>`, child `{% extends 'layout.html' %}`: the document set holds only `index.html` | offer the parent's HTML whenever the template has a parent (`not is_empty`) | medium, not executed; `get_parent_html_content` is not part of this model | Jinja.RenderNeverLoadsLayout | Jinja.RenderWithLayoutLoadsParent |

=== FILE: authentication.dfy ===
/** Request authentication (`OAuth2Authentication.authenticate`): where the
    access token is taken from. The token validation service is a parameter;
    its result, whatever it is, is returned unchanged. */
module Authentication {
  import opened Text

  const BearerScheme := "bearer"
  const AccessTokenParameter := "access_token"

  const NoCredentialsMessage := "Invalid bearer header. No credentials provided."
  const TokenHasSpacesMessage := "Invalid bearer header. Token string should not contain spaces."

  /** Query or form parameters of the request. */
  type Parameters = map<string, string>

  /** The outcome of `authenticate`: an authentication failure raised, no
      token offered (anonymous request), or the validator's result. */
  datatype AuthResult<R> = Failed(message: string) | Anonymous | Validated(result: R)

  /** The header pieces name the bearer scheme (compared ignoring ASCII
      case) and carry a token. */
  predicate IsBearer(auth: seq<string>)
  {
    |auth| == 2 && Lower(auth[0]) == BearerScheme
  }

  /** `authenticate`: the `Authorization` header split on whitespace must
      not have exactly one piece nor more than two; a bearer header supplies
      the token, otherwise the form parameter, otherwise the query
      parameter; without any of them the request is anonymous. */
  function Authenticate<R>(header: string, post: Parameters, get: Parameters, validate: string -> R): (r: AuthResult<R>)
    ensures var auth := Split(header, IsAsciiSpace);
      && (r.Failed? <==> |auth| == 1 || |auth| > 2)
      && (r.Failed? ==> (r.message == NoCredentialsMessage <==> |auth| == 1))
      && (IsBearer(auth) ==> r == Validated(validate(auth[1])))
      && (r.Anonymous? <==>
            (|auth| == 0 || (|auth| == 2 && !IsBearer(auth))) && AccessTokenParameter !in post && AccessTokenParameter !in get)
    ensures var auth := Split(header, IsAsciiSpace);
      var fallback := |auth| == 0 || (|auth| == 2 && !IsBearer(auth));
      && (fallback && AccessTokenParameter in post ==> r == Validated(validate(post[AccessTokenParameter])))
      && (fallback && AccessTokenParameter !in post && AccessTokenParameter in get ==>
            r == Validated(validate(get[AccessTokenParameter])))
  {
    var auth := Split(header, IsAsciiSpace);
    if |auth| == 1 then Failed(NoCredentialsMessage)
    else if |auth| > 2 then Failed(TokenHasSpacesMessage)
    else if |auth| > 0 && Lower(auth[0]) == BearerScheme then Validated(validate(auth[1]))
    else if AccessTokenParameter in post then Validated(validate(post[AccessTokenParameter]))
    else if AccessTokenParameter in get then Validated(validate(get[AccessTokenParameter]))
    else Anonymous
  }

  /** `Authorization: <scheme> <token>` with a bearer scheme written in any
      ASCII case hands exactly the token to the validator, whatever the
      request parameters say. */
  lemma {:induction false} BearerHeaderWins<R>(scheme: string, token: string, post: Parameters, get: Parameters, validate: string -> R)
    requires Lower(scheme) == BearerScheme
    requires token != [] && NoSpace(token, IsAsciiSpace)
    ensures Authenticate(scheme + " " + token, post, get, validate) == Validated(validate(token))
  {
    assert NoSpace(scheme, IsAsciiSpace) by {
      forall i | 0 <= i < |scheme| ensures !IsAsciiSpace(scheme[i]) {
        assert Lower(scheme)[i] == BearerScheme[i];
      }
    }
    assert scheme != [] by { assert |Lower(scheme)| == 6; }
    assert scheme + " " + token == scheme + [' '] + token;
    SplitAtSpace(scheme, ' ', token, IsAsciiSpace);
    SplitSingleWord(scheme, IsAsciiSpace);
    SplitSingleWord(token, IsAsciiSpace);
  }

  /** A header holding a lone word is refused, whatever the parameters. */
  lemma {:induction false} LoneWordRefused<R>(word: string, post: Parameters, get: Parameters, validate: string -> R)
    requires word != [] && NoSpace(word, IsAsciiSpace)
    ensures Authenticate(word, post, get, validate) == Failed(NoCredentialsMessage)
  {
    SplitSingleWord(word, IsAsciiSpace);
  }

  /** A header naming another scheme is ignored: the query parameter is
      used when there is no form parameter. */
  lemma {:induction false} OtherSchemeFallsBackToQuery<R>(scheme: string, credentials: string, post: Parameters,
                                                          get: Parameters, validate: string -> R)
    requires scheme != [] && NoSpace(scheme, IsAsciiSpace) && Lower(scheme) != BearerScheme
    requires credentials != [] && NoSpace(credentials, IsAsciiSpace)
    requires AccessTokenParameter !in post && AccessTokenParameter in get
    ensures Authenticate(scheme + " " + credentials, post, get, validate) == Validated(validate(get[AccessTokenParameter]))
  {
    assert scheme + " " + credentials == scheme + [' '] + credentials;
    SplitAtSpace(scheme, ' ', credentials, IsAsciiSpace);
    SplitSingleWord(scheme, IsAsciiSpace);
    SplitSingleWord(credentials, IsAsciiSpace);
  }

  /** Without a header, the form parameter is preferred to the query
      parameter. */
  lemma {:induction false} FormBeforeQuery<R>(post: Parameters, get: Parameters, validate: string -> R)
    requires AccessTokenParameter in post
    ensures Authenticate("", post, get, validate) == Validated(validate(post[AccessTokenParameter]))
  {
  }
}

=== FILE: clients.dfy ===
/** Tenants of the mailing service (`Client`) and the checks run before one is
    added or renamed (`ClientWriteSerializer.validate`). */
module Clients {
  import opened Common
  import Text

  /** Surrogate primary key of a client row. */
  type ClientPk = nat

  /** Column width of `client_id`. */
  const ClientIdMaxLength := 255

  datatype Client = Client(clientId: string)

  /** The client table, keyed by primary key. */
  type ClientStore = map<ClientPk, Client>

  /** The string form of a client (`__str__`) is its `client_id`. */
  function ToString(c: Client): string
  {
    c.clientId
  }

  /** The column constraints on `client_id`: not blank, at most 255 long. */
  predicate ValidClientId(s: string)
  {
    !Blank(s) && |s| <= ClientIdMaxLength
  }

  /** `client_id` is unique across the table. */
  predicate ClientIdsUnique(store: ClientStore)
  {
    forall p, q :: p in store && q in store && p != q ==> store[p].clientId != store[q].clientId
  }

  predicate StoreInvariant(store: ClientStore)
  {
    && (forall p :: p in store ==> ValidClientId(store[p].clientId))
    && ClientIdsUnique(store)
  }

  datatype ClientError =
    | ClientIdNotSet     // 'Client Id is not set.'
    | TypeNotSet         // 'Type is not set.'
    | ClientIdTaken      // 'Already exist a Client Id.'
    | ClientIdRequired   // the field layer: 'This field is required.'
    | ClientIdBlank      // the field layer: 'This field may not be blank.'
    | ClientIdTooLong    // the field layer: the column width
    | ClientIdNotUnique  // the field layer: the column's unique validator

  /** The validator tests the truthiness of Python's builtin `type`, a class
      object, which is always truthy. */
  const BuiltinTypeIsTruthy := true

  /** Some row other than `self` already uses `clientId`. */
  predicate TakenByOther(store: ClientStore, clientId: string, self: Option<ClientPk>)
  {
    exists p :: p in store && store[p].clientId == clientId && self != Some(p)
  }

  /** `ClientWriteSerializer.validate`: `self` is the row being updated, or
      `None` on add. On success the input is handed back unchanged. */
  function Validate(store: ClientStore, clientId: Option<string>, self: Option<ClientPk>): (r: Result<Option<string>, ClientError>)
    ensures r.Ok? ==> r.value == clientId
    ensures r.Ok? <==> !IsEmpty(clientId) && !TakenByOther(store, clientId.value, self)
    ensures IsEmpty(clientId) ==> r == Err(ClientIdNotSet)
    ensures r != Err(TypeNotSet)
  {
    var isUpdate := self.Some?;
    if IsEmpty(clientId) then Err(ClientIdNotSet)
    else if !BuiltinTypeIsTruthy && !isUpdate then Err(TypeNotSet)
    else if TakenByOther(store, clientId.value, self) then Err(ClientIdTaken)
    else Ok(clientId)
  }

  /** The serializer's field layer for `client_id`, run before `validate`:
      required on add only (updates are partial), never blank, within the
      column width, and held by no other row. */
  function CheckField(store: ClientStore, clientId: Option<string>, self: Option<ClientPk>): (r: Option<ClientError>)
    ensures r.None? <==>
      (clientId.None? ==> self.Some?) &&
      (clientId.Some? ==> ValidClientId(clientId.value) && !TakenByOther(store, clientId.value, self))
    ensures clientId.None? && self.None? ==> r == Some(ClientIdRequired)
    ensures clientId.Some? && Blank(clientId.value) ==> r == Some(ClientIdBlank)
    ensures clientId.Some? && ValidClientId(clientId.value) && TakenByOther(store, clientId.value, self) ==>
      r == Some(ClientIdNotUnique)
  {
    if clientId.None? then (if self.None? then Some(ClientIdRequired) else None)
    else if Blank(clientId.value) then Some(ClientIdBlank)
    else if |clientId.value| > ClientIdMaxLength then Some(ClientIdTooLong)
    else if TakenByOther(store, clientId.value, self) then Some(ClientIdNotUnique)
    else None
  }

  /** A write of one client: the field layer (which strips `client_id`
      and then checks it), then the validator, then the row is stored under
      `pk` (a fresh key on add, the row's own key on update). */
  function Write(store: ClientStore, pk: ClientPk, clientId: Option<string>, isUpdate: bool): (r: Result<ClientStore, ClientError>)
    requires isUpdate <==> pk in store
    ensures r.Ok? <==>
      && clientId.Some?
      && ValidClientId(Text.Strip(clientId.value))
      && !TakenByOther(store, Text.Strip(clientId.value), if isUpdate then Some(pk) else None)
    ensures r.Ok? ==> r.value == store[pk := Client(Text.Strip(clientId.value))]
    ensures clientId.None? ==> r == Err(if isUpdate then ClientIdNotSet else ClientIdRequired)
    ensures clientId.Some? && Blank(Text.Strip(clientId.value)) ==> r == Err(ClientIdBlank)
  {
    var self := if isUpdate then Some(pk) else None;
    var clean := Text.StripOpt(clientId);
    var field := CheckField(store, clean, self);
    if field.Some? then Err(field.value)
    else
      match Validate(store, clean, self)
      case Err(e) => Err(e)
      case Ok(id) => Ok(store[pk := Client(id.value)])
  }

  /** A whitespace-only `client_id` is stripped to nothing and refused as
      blank, before the validator's 'Client Id is not set.' is reached. */
  lemma {:induction false} WhitespaceIdIsBlank(store: ClientStore, pk: ClientPk, clientId: string, isUpdate: bool)
    requires isUpdate <==> pk in store
    requires forall i :: 0 <= i < |clientId| ==> Text.IsUnicodeSpace(clientId[i])
    ensures Write(store, pk, Some(clientId), isUpdate) == Err(ClientIdBlank)
  {
    assert Text.Strip(clientId) == [];
  }

  /** Through the serializer the validator's own messages are reached only
      for an update that leaves `client_id` out: a duplicate is caught by
      the field layer's unique validator first, so 'Already exist a Client
      Id.' is never reported. */
  lemma {:induction false} WriteNeverReportsTaken(store: ClientStore, pk: ClientPk, clientId: Option<string>, isUpdate: bool)
    requires isUpdate <==> pk in store
    ensures Write(store, pk, clientId, isUpdate) != Err(ClientIdTaken)
    ensures Write(store, pk, clientId, isUpdate) == Err(ClientIdNotSet) <==> isUpdate && clientId.None?
  {
    var self := if isUpdate then Some(pk) else None;
    var clean := Text.StripOpt(clientId);
    if CheckField(store, clean, self).None? && clean.Some? {
      assert !TakenByOther(store, clean.value, self);
      assert !IsEmpty(clean);
    }
  }

  /** Adding and renaming keep every `client_id` valid and unique. */
  lemma {:induction false} WritePreservesInvariant(store: ClientStore, pk: ClientPk, clientId: Option<string>, isUpdate: bool)
    requires isUpdate <==> pk in store
    requires StoreInvariant(store)
    ensures Write(store, pk, clientId, isUpdate).Ok? ==> StoreInvariant(Write(store, pk, clientId, isUpdate).value)
  {
    var r := Write(store, pk, clientId, isUpdate);
    if r.Ok? {
      var self := if isUpdate then Some(pk) else None;
      var id := Text.Strip(clientId.value);
      assert !TakenByOther(store, id, self);
      var s' := r.value;
      forall p, q | p in s' && q in s' && p != q
        ensures s'[p].clientId != s'[q].clientId
      {
        if p == pk {
          assert !(q in store && store[q].clientId == id && self != Some(q));
        } else if q == pk {
          assert !(p in store && store[p].clientId == id && self != Some(p));
        }
      }
    }
  }

  /** On update the row's own `client_id` is not a duplicate, so a row may
      keep or change its id as long as no other row holds the new one. */
  lemma {:induction false} RenameIgnoresOwnRow(store: ClientStore, pk: ClientPk, newId: string)
    requires pk in store && newId != ""
    requires forall p :: p in store && p != pk ==> store[p].clientId != newId
    ensures Validate(store, Some(newId), Some(pk)) == Ok(Some(newId))
  {
  }

  /** A duplicate id is refused, and on add every existing id is one. */
  lemma {:induction false} DuplicateRefused(store: ClientStore, p: ClientPk, self: Option<ClientPk>)
    requires p in store && store[p].clientId != "" && self != Some(p)
    ensures Validate(store, Some(store[p].clientId), self) == Err(ClientIdTaken)
  {
    assert TakenByOther(store, store[p].clientId, self);
  }

  /** Rows of a table with unique ids have distinct string forms. */
  lemma {:induction false} StringFormsDistinct(store: ClientStore)
    requires ClientIdsUnique(store)
    ensures forall p, q :: p in store && q in store && p != q ==> ToString(store[p]) != ToString(store[q])
  {
  }
}

=== FILE: common.dfy ===
/** Shared wrappers for the mailing service model: optional values, results
    carrying an error, and the service's notion of an "empty" string field. */
module Common {

  /** A value that may be absent (Python's `None`). */
  datatype Option<+T> = None | Some(value: T)

  /** The outcome of an operation that may raise one of the service's errors. */
  datatype Result<+T, +E> = Ok(value: T) | Err(error: E)

  /** A present string counts as blank when it has no characters. */
  predicate Blank(s: string)
  {
    s == ""
  }

  /** The repository's `is_empty` helper: true of an absent value and of a
      blank string. */
  predicate IsEmpty(s: Option<string>)
  {
    s.None? || Blank(s.value)
  }
}

=== FILE: dispatch.dfy ===
/** The dispatch pass of the SendGrid service: which mails are attempted
    (`process_pending_emails`), in which order, and what one attempt does to
    a mail (`_send_email`). The provider is an uninterpreted function from a
    mail to its outcome; each attempt is one all-or-nothing update of the
    mail table. */
module Dispatch {
  import opened Common
  import opened Mails
  import Clients
  import Templates

  /** The mail table, keyed by primary key. */
  type MailTable = map<MailId, Mail>

  /** What the provider call yields: a response, or an exception raised
      anywhere while the provider request is built or sent. */
  datatype Outcome = Response(status: int, body: string) | Raised(message: string)

  /** Statuses the provider uses for an accepted message. */
  const AcceptedStatuses: set<int> := {200, 202}

  /** The selection filter: not delivered, no retry pending in the future,
      and fewer attempts than the template allows. A mail whose template
      row is missing drops out of the join. */
  predicate Eligible(m: Mail, templates: Templates.TemplateStore, now: int)
  {
    && m.sentDate.None?
    && (m.nextRetryDate.None? || m.nextRetryDate.value <= now)
    && m.template in templates
    && m.retries < templates[m.template].maxRetries
  }

  function EligibleIds(table: MailTable, templates: Templates.TemplateStore, now: int): (s: set<MailId>)
    ensures forall id :: id in s <==> id in table && Eligible(table[id], templates, now)
  {
    set id | id in table && Eligible(table[id], templates, now)
  }

  predicate StrictlyIncreasing(ids: seq<MailId>)
  {
    forall i, j :: 0 <= i < j < |ids| ==> ids[i] < ids[j]
  }

  /** `m` is the least element of `s`. */
  predicate IsLeast(m: MailId, s: set<MailId>)
  {
    m in s && forall y :: y in s ==> m <= y
  }

  lemma {:induction false} MinExists(s: set<MailId>)
    requires s != {}
    ensures exists m :: IsLeast(m, s)
    decreases |s|
  {
    var x :| x in s;
    var rest := s - {x};
    if rest == {} {
      assert s == {x};
      assert IsLeast(x, s);
    } else {
      MinExists(rest);
      var m :| IsLeast(m, rest);
      var best := if x < m then x else m;
      forall y | y in s
        ensures best <= y
      {
        if y != x {
          assert y in rest;
        }
      }
      assert IsLeast(best, s);
    }
  }

  function MinOf(s: set<MailId>): (m: MailId)
    requires s != {}
    ensures m in s && forall y :: y in s ==> m <= y
  {
    MinExists(s);
    var m :| IsLeast(m, s);
    m
  }

  /** `order_by('id')`: the identifiers of `s` in ascending order. */
  function SortedIds(s: set<MailId>): (r: seq<MailId>)
    ensures StrictlyIncreasing(r)
    ensures forall x :: x in r <==> x in s
    ensures |r| == |s|
    decreases |s|
  {
    if s == {} then []
    else
      var m := MinOf(s);
      var rest := SortedIds(s - {m});
      assert forall x :: x in rest ==> m < x;
      [m] + rest
  }

  /** The required field a mail lacks, in the order they are checked. */
  datatype MissingField = EmptySubject | EmptyFromEmail | EmptyToEmail | EmptyContent

  function MissingFieldOf(m: Mail): (r: Option<MissingField>)
    ensures r.None? <==>
      !Blank(m.subject) && !Blank(m.fromEmail) && !Blank(m.toEmail) && !(Blank(m.htmlContent) && Blank(m.plainContent))
  {
    if Blank(m.subject) then Some(EmptySubject)
    else if Blank(m.fromEmail) then Some(EmptyFromEmail)
    else if Blank(m.toEmail) then Some(EmptyToEmail)
    else if Blank(m.htmlContent) && Blank(m.plainContent) then Some(EmptyContent)
    else None
  }

  /** `_send_email`: refused before the provider is involved when a
      required field is empty; otherwise the mail after the attempt and the
      boolean the attempt returns. */
  datatype SendResult = Invalid(field: MissingField) | Attempted(reported: bool, mail: Mail)

  /** An outcome the pass counts: an accepted status, or an exception. */
  predicate Reported(o: Outcome)
  {
    o.Raised? || o.status in AcceptedStatuses
  }

  function SendEmail(m: Mail, maxRetries: int, now: int, provider: Mail -> Outcome): (r: SendResult)
    ensures MissingFieldOf(m).Some? <==> r.Invalid?
    ensures r.Attempted? ==> r.reported == Reported(provider(m))
    ensures r.Attempted? ==> r.mail.template == m.template
  {
    match MissingFieldOf(m)
    case Some(f) => Invalid(f)
    case None =>
      match provider(m)
      case Response(status, body) =>
        if status !in AcceptedStatuses then Attempted(false, MarkRetry(m, maxRetries, body, now))
        else Attempted(true, MarkAsSent(m, now))
      case Raised(message) => Attempted(true, MarkRetry(m, maxRetries, message, now))
  }

  /** A refused mail is refused whatever the provider would have done. */
  lemma {:induction false} ValidationPrecedesProvider(m: Mail, maxRetries: int, now: int, p: Mail -> Outcome, q: Mail -> Outcome)
    requires MissingFieldOf(m).Some?
    ensures SendEmail(m, maxRetries, now, p) == SendEmail(m, maxRetries, now, q) == Invalid(MissingFieldOf(m).value)
  {
  }

  /** The three outcomes of an attempt on a complete mail. */
  lemma {:induction false} OutcomeMapping(m: Mail, maxRetries: int, now: int, provider: Mail -> Outcome)
    requires MissingFieldOf(m).None?
    ensures provider(m).Response? && provider(m).status in AcceptedStatuses ==>
      SendEmail(m, maxRetries, now, provider) == Attempted(true, MarkAsSent(m, now))
    ensures provider(m).Response? && provider(m).status !in AcceptedStatuses ==>
      SendEmail(m, maxRetries, now, provider) == Attempted(false, MarkRetry(m, maxRetries, provider(m).body, now))
    ensures provider(m).Raised? ==>
      SendEmail(m, maxRetries, now, provider) == Attempted(true, MarkRetry(m, maxRetries, provider(m).message, now))
  {
  }

  /** How a pass ends: every selected mail attempted, or an uncaught
      validation error at mail `at`. `calls` lists the mails handed to the
      provider, in order; `table` holds every update committed so far. */
  datatype PassResult =
    | Finished(count: nat, table: MailTable, calls: seq<MailId>)
    | Aborted(at: MailId, field: MissingField, table: MailTable, calls: seq<MailId>)

  /** Every listed mail exists and its template row exists. */
  predicate Selectable(ids: seq<MailId>, table: MailTable, templates: Templates.TemplateStore)
  {
    forall i :: 0 <= i < |ids| ==> ids[i] in table && table[ids[i]].template in templates
  }

  /** Updating the first listed row without changing its template keeps the
      rest of the list selectable. */
  lemma {:induction false} SelectableStep(ids: seq<MailId>, table: MailTable, templates: Templates.TemplateStore, m': Mail)
    requires Selectable(ids, table, templates) && ids != []
    requires m'.template == table[ids[0]].template
    ensures Selectable(ids[1..], table[ids[0] := m'], templates)
  {
    forall i | 0 <= i < |ids[1..]|
      ensures ids[1..][i] in table[ids[0] := m'] && table[ids[0] := m'][ids[1..][i]].template in templates
    {
      assert ids[1..][i] == ids[i + 1];
    }
  }

  /** The loop of `process_pending_emails` over `ids`, continuing from a
      count and a list of provider calls. */
  function Pass(ids: seq<MailId>, table: MailTable, templates: Templates.TemplateStore, now: int,
                provider: Mail -> Outcome, count: nat, calls: seq<MailId>): PassResult
    requires Selectable(ids, table, templates)
    decreases |ids|
  {
    if ids == [] then Finished(count, table, calls)
    else
      var id := ids[0];
      var m := table[id];
      match SendEmail(m, templates[m.template].maxRetries, now, provider)
      case Invalid(f) => Aborted(id, f, table, calls)
      case Attempted(reported, m') =>
        var table' := table[id := m'];
        SelectableStep(ids, table, templates, m');
        Pass(ids[1..], table', templates, now, provider, if reported then count + 1 else count, calls + [id])
  }

  /** `process_pending_emails`: the eligible mails in ascending id order,
      attempted one after another. `batch` only names the run; it does not
      bound the number of mails attempted. */
  function ProcessPendingEmails(batch: int, table: MailTable, templates: Templates.TemplateStore, now: int,
                                provider: Mail -> Outcome): PassResult
  {
    Pass(SortedIds(EligibleIds(table, templates, now)), table, templates, now, provider, 0, [])
  }

  /** One step of the pass: the first listed mail is attempted, and the
      pass either stops there or carries on with the rest. */
  lemma {:induction false} PassStep(ids: seq<MailId>, table: MailTable, templates: Templates.TemplateStore, now: int,
                                    provider: Mail -> Outcome, count: nat, calls: seq<MailId>)
    requires Selectable(ids, table, templates) && ids != []
    ensures var m := table[ids[0]];
      var sent := SendEmail(m, templates[m.template].maxRetries, now, provider);
      && (sent.Invalid? ==> Pass(ids, table, templates, now, provider, count, calls) == Aborted(ids[0], sent.field, table, calls))
      && (sent.Attempted? ==>
            && Selectable(ids[1..], table[ids[0] := sent.mail], templates)
            && Pass(ids, table, templates, now, provider, count, calls) ==
               Pass(ids[1..], table[ids[0] := sent.mail], templates, now, provider,
                    if sent.reported then count + 1 else count, calls + [ids[0]]))
  {
    var m := table[ids[0]];
    var sent := SendEmail(m, templates[m.template].maxRetries, now, provider);
    if sent.Attempted? {
      SelectableStep(ids, table, templates, sent.mail);
    }
  }

  /** The loop of `process_pending_emails`, as the service runs it. */
  method RunPass(ids: seq<MailId>, table: MailTable, templates: Templates.TemplateStore, now: int,
                 provider: Mail -> Outcome) returns (r: PassResult)
    requires Selectable(ids, table, templates)
    ensures r == Pass(ids, table, templates, now, provider, 0, [])
  {
    var current := table;
    var count: nat := 0;
    var calls: seq<MailId> := [];
    var i := 0;
    while i < |ids|
      invariant 0 <= i <= |ids|
      invariant Selectable(ids[i..], current, templates)
      invariant Pass(ids[i..], current, templates, now, provider, count, calls) == Pass(ids, table, templates, now, provider, 0, [])
    {
      PassStep(ids[i..], current, templates, now, provider, count, calls);
      var id := ids[i];
      var m := current[id];
      var sent := SendEmail(m, templates[m.template].maxRetries, now, provider);
      if sent.Invalid? {
        return Aborted(id, sent.field, current, calls);
      }
      assert ids[i..][1..] == ids[i + 1..];
      current := current[id := sent.mail];
      count := if sent.reported then count + 1 else count;
      calls := calls + [id];
      i := i + 1;
    }
    return Finished(count, current, calls);
  }

  /** `process_pending_emails` as a method: selection, then the loop. */
  method ProcessPendingEmailsLoop(batch: int, table: MailTable, templates: Templates.TemplateStore, now: int,
                                  provider: Mail -> Outcome) returns (r: PassResult)
    ensures r == ProcessPendingEmails(batch, table, templates, now, provider)
  {
    var ids := SortedIds(EligibleIds(table, templates, now));
    r := RunPass(ids, table, templates, now, provider);
  }

  /** Number of listed mails whose outcome the pass counts. */
  function CountReported(ids: seq<MailId>, table: MailTable, provider: Mail -> Outcome): nat
    requires forall i :: 0 <= i < |ids| ==> ids[i] in table
  {
    if ids == [] then 0
    else (if Reported(provider(table[ids[0]])) then 1 else 0) + CountReported(ids[1..], table, provider)
  }

  predicate Distinct(ids: seq<MailId>)
  {
    forall i, j :: 0 <= i < j < |ids| ==> ids[i] != ids[j]
  }

  /** The rows of the rest of a distinct list are those of the original
      table after the first row is updated. */
  lemma {:induction false} DistinctTail(ids: seq<MailId>, table: MailTable, m': Mail)
    requires Distinct(ids) && ids != []
    requires forall i :: 0 <= i < |ids| ==> ids[i] in table
    ensures Distinct(ids[1..])
    ensures ids[0] !in ids[1..]
    ensures forall i :: 0 <= i < |ids[1..]| ==> ids[1..][i] in table && table[ids[0] := m'][ids[1..][i]] == table[ids[1..][i]]
  {
    forall i, j | 0 <= i < j < |ids[1..]| ensures ids[1..][i] != ids[1..][j] {
      assert ids[1..][i] == ids[i + 1] && ids[1..][j] == ids[j + 1];
    }
    forall i | 0 <= i < |ids[1..]| ensures ids[1..][i] != ids[0] {
      assert ids[1..][i] == ids[i + 1];
    }
  }

  lemma {:induction false} CountReportedFrame(ids: seq<MailId>, t1: MailTable, t2: MailTable, provider: Mail -> Outcome)
    requires forall i :: 0 <= i < |ids| ==> ids[i] in t1 && ids[i] in t2 && t1[ids[i]] == t2[ids[i]]
    ensures CountReported(ids, t1, provider) == CountReported(ids, t2, provider)
    decreases |ids|
  {
    if ids != [] {
      CountReportedFrame(ids[1..], t1, t2, provider);
    }
  }

  /** A pass never adds or removes rows, and rows it does not list are left
      as they were. */
  lemma {:induction false} PassFrame(ids: seq<MailId>, table: MailTable, templates: Templates.TemplateStore, now: int,
                                     provider: Mail -> Outcome, count: nat, calls: seq<MailId>)
    requires Selectable(ids, table, templates)
    ensures var r := Pass(ids, table, templates, now, provider, count, calls);
      && r.table.Keys == table.Keys
      && forall x :: x in table && x !in ids ==> r.table[x] == table[x]
    decreases |ids|
  {
    if ids != [] {
      PassStep(ids, table, templates, now, provider, count, calls);
      var m := table[ids[0]];
      var sent := SendEmail(m, templates[m.template].maxRetries, now, provider);
      if sent.Attempted? {
        PassFrame(ids[1..], table[ids[0] := sent.mail], templates, now, provider,
                  if sent.reported then count + 1 else count, calls + [ids[0]]);
      }
    }
  }

  /** A pass finishes exactly when every listed mail has its required
      fields. */
  lemma {:induction false} PassFinishesIff(ids: seq<MailId>, table: MailTable, templates: Templates.TemplateStore, now: int,
                                           provider: Mail -> Outcome, count: nat, calls: seq<MailId>)
    requires Selectable(ids, table, templates)
    requires Distinct(ids)
    ensures Pass(ids, table, templates, now, provider, count, calls).Finished? <==>
      forall i :: 0 <= i < |ids| ==> MissingFieldOf(table[ids[i]]).None?
    decreases |ids|
  {
    if ids != [] {
      PassStep(ids, table, templates, now, provider, count, calls);
      var id := ids[0];
      var m := table[id];
      var sent := SendEmail(m, templates[m.template].maxRetries, now, provider);
      if sent.Attempted? {
        var table' := table[id := sent.mail];
        DistinctTail(ids, table, sent.mail);
        PassFinishesIff(ids[1..], table', templates, now, provider, if sent.reported then count + 1 else count, calls + [id]);
        if forall i :: 0 <= i < |ids[1..]| ==> MissingFieldOf(table'[ids[1..][i]]).None? {
          forall i | 0 <= i < |ids| ensures MissingFieldOf(table[ids[i]]).None? {
            if i > 0 { assert ids[i] == ids[1..][i - 1]; }
          }
        }
      }
    }
  }

  /** A finished pass over distinct mails has handed every listed mail to
      the provider in order and counted those whose outcome is counted. */
  lemma {:induction false} PassFinishedCounts(ids: seq<MailId>, table: MailTable, templates: Templates.TemplateStore, now: int,
                                              provider: Mail -> Outcome, count: nat, calls: seq<MailId>)
    requires Selectable(ids, table, templates)
    requires Distinct(ids)
    ensures var r := Pass(ids, table, templates, now, provider, count, calls);
      r.Finished? ==> r.calls == calls + ids && r.count == count + CountReported(ids, table, provider)
    decreases |ids|
  {
    if ids != [] {
      PassStep(ids, table, templates, now, provider, count, calls);
      var id := ids[0];
      var m := table[id];
      var sent := SendEmail(m, templates[m.template].maxRetries, now, provider);
      if sent.Attempted? {
        var table' := table[id := sent.mail];
        DistinctTail(ids, table, sent.mail);
        PassFinishedCounts(ids[1..], table', templates, now, provider, if sent.reported then count + 1 else count, calls + [id]);
        CountReportedFrame(ids[1..], table', table, provider);
        assert calls + [id] + ids[1..] == calls + ids;
      }
    }
  }

  /** After a finished pass over distinct mails, each listed row holds the
      outcome of its own attempt. */
  lemma {:induction false} PassFinishedRows(ids: seq<MailId>, table: MailTable, templates: Templates.TemplateStore, now: int,
                                            provider: Mail -> Outcome, count: nat, calls: seq<MailId>)
    requires Selectable(ids, table, templates)
    requires Distinct(ids)
    ensures var r := Pass(ids, table, templates, now, provider, count, calls);
      r.Finished? ==> forall x :: x in ids ==>
        (x in r.table && SendEmail(table[x], templates[table[x].template].maxRetries, now, provider).Attempted?
         && r.table[x] == SendEmail(table[x], templates[table[x].template].maxRetries, now, provider).mail)
    decreases |ids|
  {
    if ids != [] {
      PassStep(ids, table, templates, now, provider, count, calls);
      var id := ids[0];
      var m := table[id];
      var sent := SendEmail(m, templates[m.template].maxRetries, now, provider);
      if sent.Attempted? {
        var table' := table[id := sent.mail];
        var count' := if sent.reported then count + 1 else count;
        DistinctTail(ids, table, sent.mail);
        PassFinishedRows(ids[1..], table', templates, now, provider, count', calls + [id]);
        PassFrame(ids[1..], table', templates, now, provider, count', calls + [id]);
        var r := Pass(ids, table, templates, now, provider, count, calls);
        if r.Finished? {
          forall x | x in ids
            ensures x in r.table
            ensures SendEmail(table[x], templates[table[x].template].maxRetries, now, provider).Attempted?
            ensures r.table[x] == SendEmail(table[x], templates[table[x].template].maxRetries, now, provider).mail
          {
            if x != id {
              var k :| 0 <= k < |ids| && ids[k] == x;
              assert ids[1..][k - 1] == x;
            }
          }
        }
      }
    }
  }

  /** The pass stopped at position `k` of `ids`: every earlier mail was
      complete and handed to the provider, the mail at `k` lacks a required
      field, and its row is still the original one. */
  ghost predicate AbortedAt(ids: seq<MailId>, table: MailTable, calls: seq<MailId>, k: int, r: PassResult)
    requires forall i :: 0 <= i < |ids| ==> ids[i] in table
  {
    && r.Aborted?
    && 0 <= k < |ids|
    && r.at == ids[k]
    && MissingFieldOf(table[ids[k]]) == Some(r.field)
    && ids[k] in r.table
    && r.table[ids[k]] == table[ids[k]]
    && r.calls == calls + ids[..k]
    && forall i :: 0 <= i < k ==> MissingFieldOf(table[ids[i]]).None?
  }

  /** Handing over the head and then `k` ids of the tail is handing over
      the first `k + 1` ids. */
  lemma {:induction false} PrefixOfTail(ids: seq<MailId>, calls: seq<MailId>, k: nat)
    requires k < |ids|
    ensures calls + [ids[0]] + ids[1..][..k] == calls + ids[..k + 1]
  {
    assert ids[..k + 1] == [ids[0]] + ids[1..][..k];
  }

  /** A pass over distinct mails that stops, stops at the first listed mail
      with an empty required field, after handing over exactly the mails
      before it, and leaves that mail's row as it was. */
  lemma {:induction false} PassAborted(ids: seq<MailId>, table: MailTable, templates: Templates.TemplateStore, now: int,
                                       provider: Mail -> Outcome, count: nat, calls: seq<MailId>)
    requires Selectable(ids, table, templates)
    requires Distinct(ids)
    ensures var r := Pass(ids, table, templates, now, provider, count, calls);
      r.Aborted? ==> exists k :: AbortedAt(ids, table, calls, k, r)
    decreases |ids|
  {
    var r := Pass(ids, table, templates, now, provider, count, calls);
    if ids != [] && r.Aborted? {
      PassStep(ids, table, templates, now, provider, count, calls);
      var id := ids[0];
      var m := table[id];
      var sent := SendEmail(m, templates[m.template].maxRetries, now, provider);
      if sent.Invalid? {
        assert ids[..0] == [];
        assert AbortedAt(ids, table, calls, 0, r);
      } else {
        var table' := table[id := sent.mail];
        var count' := if sent.reported then count + 1 else count;
        DistinctTail(ids, table, sent.mail);
        PassAborted(ids[1..], table', templates, now, provider, count', calls + [id]);
        var k :| AbortedAt(ids[1..], table', calls + [id], k, r);
        assert ids[k + 1] == ids[1..][k];
        PrefixOfTail(ids, calls, k);
        forall i | 0 <= i < k + 1 ensures MissingFieldOf(table[ids[i]]).None? {
          if i > 0 { assert ids[i] == ids[1..][i - 1]; }
        }
        assert AbortedAt(ids, table, calls, k + 1, r);
      }
    }
  }

  /** The mails a pass lists, as a set: the listed ids whose outcome is
      counted. */
  function ReportedSet(ids: seq<MailId>, table: MailTable, provider: Mail -> Outcome): set<MailId>
    requires forall i :: 0 <= i < |ids| ==> ids[i] in table
  {
    set i | 0 <= i < |ids| && Reported(provider(table[ids[i]])) :: ids[i]
  }

  /** Over distinct mails, the running count is the number of distinct
      mails whose outcome is counted. */
  lemma {:induction false} CountReportedIsCardinality(ids: seq<MailId>, table: MailTable, provider: Mail -> Outcome)
    requires forall i :: 0 <= i < |ids| ==> ids[i] in table
    requires Distinct(ids)
    ensures CountReported(ids, table, provider) == |ReportedSet(ids, table, provider)|
    decreases |ids|
  {
    if ids != [] {
      DistinctTail(ids, table, table[ids[0]]);
      CountReportedIsCardinality(ids[1..], table, provider);
      var head := if Reported(provider(table[ids[0]])) then {ids[0]} else {};
      var rest := ReportedSet(ids[1..], table, provider);
      var all := ReportedSet(ids, table, provider);
      forall x | x in all ensures x in head + rest {
        var i :| 0 <= i < |ids| && Reported(provider(table[ids[i]])) && ids[i] == x;
        if i > 0 { assert ids[1..][i - 1] == x; }
      }
      forall x | x in head + rest ensures x in all {
        if x in rest {
          var i :| 0 <= i < |ids[1..]| && Reported(provider(table[ids[1..][i]])) && ids[1..][i] == x;
          assert ids[i + 1] == x;
        } else {
          assert ids[0] == x;
        }
      }
      assert all == head + rest;
      assert head * rest == {};
    }
  }

  /** The list a pending pass walks is selectable and free of repeats. */
  lemma {:induction false} PendingIdsWellFormed(table: MailTable, templates: Templates.TemplateStore, now: int)
    ensures var ids := SortedIds(EligibleIds(table, templates, now));
      && Selectable(ids, table, templates)
      && Distinct(ids)
      && forall i :: 0 <= i < |ids| ==> Eligible(table[ids[i]], templates, now)
  {
    var ids := SortedIds(EligibleIds(table, templates, now));
    forall i | 0 <= i < |ids|
      ensures ids[i] in table && Eligible(table[ids[i]], templates, now)
    {
      assert ids[i] in EligibleIds(table, templates, now);
    }
    forall i, j | 0 <= i < j < |ids| ensures ids[i] != ids[j] {
      assert ids[i] < ids[j];
    }
  }

  /** `ids` lists the members of `s` in ascending order. */
  ghost predicate ListsInOrder(ids: seq<MailId>, s: set<MailId>)
  {
    StrictlyIncreasing(ids) && forall x :: x in ids <==> x in s
  }

  /** Checking every listed row is checking every row of the listed set. */
  lemma {:induction false} AllListedFields(ids: seq<MailId>, s: set<MailId>, table: MailTable)
    requires ListsInOrder(ids, s)
    requires forall x :: x in s ==> x in table
    ensures (forall i :: 0 <= i < |ids| ==> MissingFieldOf(table[ids[i]]).None?) <==>
      (forall x :: x in s ==> MissingFieldOf(table[x]).None?)
  {
    if forall i :: 0 <= i < |ids| ==> MissingFieldOf(table[ids[i]]).None? {
      forall x | x in s ensures MissingFieldOf(table[x]).None? {
        var i :| 0 <= i < |ids| && ids[i] == x;
      }
    }
  }

  /** The counted positions of a list, as a set, are the counted members of
      the listed set. */
  lemma {:induction false} ReportedSetOfList(ids: seq<MailId>, s: set<MailId>, table: MailTable, provider: Mail -> Outcome)
    requires ListsInOrder(ids, s)
    requires forall x :: x in s ==> x in table
    ensures ReportedSet(ids, table, provider) == set x | x in s && Reported(provider(table[x]))
  {
    var byIndex := ReportedSet(ids, table, provider);
    forall x | x in s && Reported(provider(table[x])) ensures x in byIndex {
      var i :| 0 <= i < |ids| && ids[i] == x;
    }
  }

  /** The position of a member of the listed set. */
  lemma {:induction false} PositionOf(ids: seq<MailId>, s: set<MailId>, x: MailId) returns (j: int)
    requires ListsInOrder(ids, s)
    requires x in s
    ensures 0 <= j < |ids| && ids[j] == x
  {
    assert x in ids;
    j :| 0 <= j < |ids| && ids[j] == x;
  }

  /** The first `k` ids of an ascending list are exactly the members of the
      listed set below `ids[k]`. */
  lemma {:induction false} PrefixIsBelow(ids: seq<MailId>, s: set<MailId>, k: int)
    requires ListsInOrder(ids, s)
    requires 0 <= k < |ids|
    ensures forall x :: x in ids[..k] <==> x in s && x < ids[k]
  {
    forall x ensures x in ids[..k] <==> x in s && x < ids[k] {
      if x in ids[..k] {
        var j :| 0 <= j < k && ids[..k][j] == x;
        assert ids[j] == x;
      }
      if x in s && x < ids[k] {
        var j := PositionOf(ids, s, x);
        assert forall i :: k <= i < |ids| ==> ids[k] <= ids[i];
        assert j < k;
        assert ids[..k][j] == x;
      }
    }
  }

  /** Where a pass over an ascending list stops: at the smallest listed id
      lacking a required field, after handing over exactly the smaller ids. */
  lemma {:induction false} AbortedAtSmallest(ids: seq<MailId>, s: set<MailId>, table: MailTable, k: int, r: PassResult)
    requires ListsInOrder(ids, s)
    requires forall i :: 0 <= i < |ids| ==> ids[i] in table
    requires AbortedAt(ids, table, [], k, r)
    ensures r.at in s
    ensures forall x :: x in s && x in table && MissingFieldOf(table[x]).Some? ==> r.at <= x
    ensures forall x :: x in r.calls <==> x in s && x < r.at
  {
    assert r.calls == ids[..k];
    assert ids[k] in ids;
    forall x | x in s && x in table && MissingFieldOf(table[x]).Some?
      ensures r.at <= x
    {
      var j := PositionOf(ids, s, x);
      assert MissingFieldOf(table[ids[j]]).Some?;
      assert k <= j;
      if j > k {
        assert ids[k] < ids[j];
      }
    }
    PrefixIsBelow(ids, s, k);
  }

  /** `process_pending_emails` completes exactly when no eligible mail
      lacks a required field. */
  lemma {:induction false} PendingPassCompletes(batch: int, table: MailTable, templates: Templates.TemplateStore, now: int,
                                                provider: Mail -> Outcome)
    ensures ProcessPendingEmails(batch, table, templates, now, provider).Finished? <==>
      forall x :: x in EligibleIds(table, templates, now) ==> MissingFieldOf(table[x]).None?
  {
    var eligible := EligibleIds(table, templates, now);
    var ids := SortedIds(eligible);
    PendingIdsWellFormed(table, templates, now);
    PassFinishesIff(ids, table, templates, now, provider, 0, []);
    AllListedFields(ids, eligible, table);
  }

  /** A completed pass over an ascending list of distinct selectable mails
      has handed over exactly the listed set, in ascending order, and
      counted its members whose outcome counts. */
  lemma {:induction false} FinishedOverList(ids: seq<MailId>, s: set<MailId>, table: MailTable,
                                            templates: Templates.TemplateStore, now: int, provider: Mail -> Outcome,
                                            r: PassResult)
    requires ListsInOrder(ids, s)
    requires Selectable(ids, table, templates)
    requires Distinct(ids)
    requires forall x :: x in s ==> x in table
    requires r == Pass(ids, table, templates, now, provider, 0, [])
    ensures r.Finished? ==>
      && StrictlyIncreasing(r.calls)
      && (forall x :: x in r.calls <==> x in s)
      && r.count == |set x | x in s && Reported(provider(table[x]))|
  {
    PassFinishedCounts(ids, table, templates, now, provider, 0, []);
    CountReportedIsCardinality(ids, table, provider);
    ReportedSetOfList(ids, s, table, provider);
    assert [] + ids == ids;
  }

  /** A completed `process_pending_emails` has handed every eligible mail
      to the provider, in ascending id order, and counted the distinct
      eligible mails whose outcome counts. */
  lemma {:induction false} PendingPassFinished(batch: int, table: MailTable, templates: Templates.TemplateStore, now: int,
                                               provider: Mail -> Outcome)
    ensures var r := ProcessPendingEmails(batch, table, templates, now, provider);
      var eligible := EligibleIds(table, templates, now);
      r.Finished? ==>
        && StrictlyIncreasing(r.calls)
        && (forall x :: x in r.calls <==> x in eligible)
        && r.count == |set x | x in eligible && Reported(provider(table[x]))|
  {
    var eligible := EligibleIds(table, templates, now);
    var ids := SortedIds(eligible);
    PendingIdsWellFormed(table, templates, now);
    FinishedOverList(ids, eligible, table, templates, now, provider, ProcessPendingEmails(batch, table, templates, now, provider));
  }

  /** When `process_pending_emails` stops, it stops at the smallest eligible
      id whose mail lacks a required field, after handing over exactly the
      eligible mails with smaller ids, and that mail's row is left as it
      was. */
  lemma {:induction false} PendingPassAborted(batch: int, table: MailTable, templates: Templates.TemplateStore, now: int,
                                              provider: Mail -> Outcome)
    ensures var r := ProcessPendingEmails(batch, table, templates, now, provider);
      var eligible := EligibleIds(table, templates, now);
      r.Aborted? ==>
        && r.at in eligible
        && MissingFieldOf(table[r.at]) == Some(r.field)
        && r.at in r.table && r.table[r.at] == table[r.at]
        && (forall x :: x in eligible && MissingFieldOf(table[x]).Some? ==> r.at <= x)
        && (forall x :: x in r.calls <==> x in eligible && x < r.at)
  {
    var eligible := EligibleIds(table, templates, now);
    var ids := SortedIds(eligible);
    var r := ProcessPendingEmails(batch, table, templates, now, provider);
    PendingIdsWellFormed(table, templates, now);
    PassAborted(ids, table, templates, now, provider, 0, []);
    if r.Aborted? {
      var k :| AbortedAt(ids, table, [], k, r);
      AbortedAtSmallest(ids, eligible, table, k, r);
    }
  }

  /** Whatever the outcome, a pending pass keeps the set of rows and leaves
      every mail that was not eligible as it was; after a completed pass each
      eligible row holds the result of its own attempt. */
  lemma {:induction false} PendingPassEffects(batch: int, table: MailTable, templates: Templates.TemplateStore, now: int,
                                              provider: Mail -> Outcome)
    ensures var r := ProcessPendingEmails(batch, table, templates, now, provider);
      && r.table.Keys == table.Keys
      && (forall x :: x in table && !Eligible(table[x], templates, now) ==> r.table[x] == table[x])
      && (r.Finished? ==> forall x :: x in table && Eligible(table[x], templates, now) ==>
            (SendEmail(table[x], templates[table[x].template].maxRetries, now, provider).Attempted?
             && r.table[x] == SendEmail(table[x], templates[table[x].template].maxRetries, now, provider).mail))
  {
    var eligible := EligibleIds(table, templates, now);
    var ids := SortedIds(eligible);
    PendingIdsWellFormed(table, templates, now);
    PassFrame(ids, table, templates, now, provider, 0, []);
    PassFinishedRows(ids, table, templates, now, provider, 0, []);
    forall x | x in table && Eligible(table[x], templates, now) ensures x in ids {
      assert x in eligible;
    }
  }

  /** A mail that has been delivered, or whose template's cap is reached,
      is never selected again, at any later time and after any number of
      further failures. */
  lemma {:induction false} FinishedMailNeverSelected(m: Mail, templates: Templates.TemplateStore, failures: seq<Failure>, later: int)
    requires m.template in templates
    requires m.sentDate.Some? || m.retries >= templates[m.template].maxRetries
    ensures !Eligible(RetryAll(m, templates[m.template].maxRetries, failures), templates, later)
  {
    var max := templates[m.template].maxRetries;
    if m.retries >= max {
      ExhaustedIsFrozen(m, max, failures);
    } else {
      RetriesStayBounded(m, max, failures);
    }
  }

  /** A freshly stored mail is selected at once exactly when its template
      exists and allows at least one attempt. */
  lemma {:induction false} FreshMailEligible(owner: Clients.ClientPk, template: Templates.TemplateId, fromEmail: string, toEmail: string,
                                             subject: string, payload: string, plainContent: string, htmlContent: string,
                                             created: int, templates: Templates.TemplateStore, now: int)
    ensures Eligible(NewMail(owner, template, fromEmail, toEmail, subject, payload, plainContent, htmlContent, created), templates, now)
      <==> template in templates && templates[template].maxRetries > 0
  {
  }

  /** The run name plays no part in what a pass does. */
  lemma {:induction false} BatchIsOnlyAName(b1: int, b2: int, table: MailTable, templates: Templates.TemplateStore, now: int,
                                            provider: Mail -> Outcome)
    ensures ProcessPendingEmails(b1, table, templates, now, provider) == ProcessPendingEmails(b2, table, templates, now, provider)
  {
  }

  /** Two failed attempts under a template allowing two: the first waits
      one hour, the second two hours, and then the mail is never offered
      again, keeping the second error. */
  lemma {:induction false} TwoFailuresExhaust(m: Mail, templates: Templates.TemplateStore, t0: int, t1: int,
                                              provider: Mail -> Outcome)
    requires m.retries == 0 && m.sentDate.None? && m.nextRetryDate.None?
    requires m.template in templates && templates[m.template].maxRetries == 2
    requires MissingFieldOf(m).None?
    requires provider(m).Response? && provider(m).status !in AcceptedStatuses
    ensures var s1 := SendEmail(m, 2, t0, provider);
      && s1.Attempted? && !s1.reported
      && s1.mail.retries == 1 && s1.mail.nextRetryDate == Some(t0 + 3600)
      && (forall t :: Eligible(s1.mail, templates, t) <==> t >= t0 + 3600)
    ensures var m1 := SendEmail(m, 2, t0, provider).mail;
      t1 >= t0 + 3600 && provider(m1).Response? && provider(m1).status !in AcceptedStatuses ==>
        var s2 := SendEmail(m1, 2, t1, provider);
        && s2.Attempted?
        && s2.mail.retries == 2 && s2.mail.nextRetryDate == Some(t1 + 7200)
        && s2.mail.lastError == provider(m1).body && s2.mail.sentDate.None?
        && (forall t :: !Eligible(s2.mail, templates, t))
  {
  }
}

=== FILE: jinja.dfy ===
/** Template composition and strict rendering (`JinjaRender`). The template
    engine itself (parsing, discovery of referenced templates and of
    undeclared variables, evaluation) is uninterpreted: an `Engine` value
    supplies it, and everything proved here holds for every engine. */
module Jinja {
  import opened Common
  import opened Templates

  /** Name of the child document, the entry point of a document set. */
  const IndexFile := "index.html"

  /** Name under which a parent layout is offered to the child. */
  const LayoutFile := "layout.html"

  /** A document set handed to the engine: document name to source text. */
  type Documents = map<string, string>

  /** Template variables supplied by the caller. */
  type Payload = map<string, string>

  /** The template engine's behaviour on source text. A parsed form is
      identified with its source. */
  datatype Engine = Engine(
    parses: string -> bool,                        // false: a syntax error
    referencedTemplates: string -> set<string>,    // `meta.find_referenced_templates`
    undeclaredVariables: string -> seq<string>,    // `meta.find_undeclared_variables`, in iteration order
    evaluate: (Documents, Payload) -> Result<string, string>)  // `Template.render`; Err: raised by the engine

  datatype RenderError =
    | TemplateNotFound(name: string)   // the entry document is missing
    | SyntaxError                      // the entry document does not parse
    | MissingExtends                   // a layout is offered but the child does not extend it
    | MissingHtml                      // 'missing HTML content'
    | MissingVariable(name: string)    // strict mode: a variable the payload lacks
    | EngineFailure(message: string)   // raised while evaluating

  /** `build_dic`: the child under `index.html`, and the parent under
      `layout.html` when the parent text is present and non-blank. */
  function BuildDic(content: string, parentContent: Option<string>): (docs: Documents)
    ensures IndexFile in docs && docs[IndexFile] == content
    ensures LayoutFile in docs <==> !IsEmpty(parentContent)
    ensures LayoutFile in docs ==> docs[LayoutFile] == parentContent.value
    ensures docs.Keys <= {IndexFile, LayoutFile}
  {
    var index := map[IndexFile := content];
    if IsEmpty(parentContent) then index else index[LayoutFile := parentContent.value]
  }

  /** `validate`: parse the entry document and, when a layout is offered,
      insist that the entry document references it. Returns the parsed
      entry document. */
  function Validate(engine: Engine, docs: Documents): (r: Result<string, RenderError>)
    ensures r.Ok? <==>
      && IndexFile in docs
      && engine.parses(docs[IndexFile])
      && (LayoutFile in docs ==> LayoutFile in engine.referencedTemplates(docs[IndexFile]))
    ensures r.Ok? ==> r.value == docs[IndexFile]
    ensures (IndexFile in docs && engine.parses(docs[IndexFile]) && LayoutFile in docs
             && LayoutFile !in engine.referencedTemplates(docs[IndexFile])) ==> r == Err(MissingExtends)
  {
    if IndexFile !in docs then Err(TemplateNotFound(IndexFile))
    else
      var source := docs[IndexFile];
      if !engine.parses(source) then Err(SyntaxError)
      else if LayoutFile in docs && LayoutFile !in engine.referencedTemplates(source) then Err(MissingExtends)
      else Ok(source)
  }

  /** Without a layout there is no extends check: only parsing can fail. */
  lemma {:induction false} NoLayoutNoExtendsCheck(engine: Engine, content: string)
    ensures Validate(engine, BuildDic(content, None)).Ok? <==> engine.parses(content)
  {
  }

  /** `vars[k]` is `v`, and every variable before it is a key. */
  predicate FirstMissingAt(vars: seq<string>, keys: set<string>, k: int, v: string)
  {
    0 <= k < |vars| && vars[k] == v && forall j :: 0 <= j < k ==> vars[j] in keys
  }

  /** The first variable of `vars` that `keys` lacks, if any: the variable a
      left-to-right check over `vars` reports. */
  function FirstMissing(vars: seq<string>, keys: set<string>): (r: Option<string>)
    ensures r.None? <==> forall i :: 0 <= i < |vars| ==> vars[i] in keys
    ensures r.Some? ==> r.value !in keys && exists k :: FirstMissingAt(vars, keys, k, r.value)
  {
    if vars == [] then None
    else if vars[0] !in keys then
      assert FirstMissingAt(vars, keys, 0, vars[0]);
      Some(vars[0])
    else
      var r := FirstMissing(vars[1..], keys);
      if r.Some? then
        var k :| FirstMissingAt(vars[1..], keys, k, r.value);
        assert FirstMissingAt(vars, keys, k + 1, r.value);
        r
      else r
  }

  /** The parent text `render` offers as layout, exactly as written: the
      parent's HTML is offered only when the template has a parent and that
      parent's HTML is blank. */
  function LayoutOffered(parent: Option<MailTemplate>): (r: Option<string>)
    ensures r.Some? ==> parent.Some? && Blank(r.value)
    ensures parent.Some? && !Blank(parent.value.htmlContent) ==> r.None?
  {
    if parent.Some? && Blank(parent.value.htmlContent) then Some(parent.value.htmlContent) else None
  }

  /** `render`: HTML channel only. `parent` is the template's parent row,
      present exactly when the template has a parent. With `validateData`,
      every undeclared variable must be a payload key before the engine
      evaluates anything. As written, the document set never holds a
      layout. */
  function Render(engine: Engine, t: MailTemplate, parent: Option<MailTemplate>, data: Payload, validateData: bool): (r: Result<string, RenderError>)
    requires parent.Some? <==> t.parent.Some?
    ensures Blank(t.htmlContent) ==> r == Err(MissingHtml)
    ensures r.Ok? ==> Validate(engine, BuildDic(t.htmlContent, None)).Ok?
    ensures !Blank(t.htmlContent) && Validate(engine, BuildDic(t.htmlContent, None)).Err? ==>
      r == Err(Validate(engine, BuildDic(t.htmlContent, None)).error)
  {
    RenderWith(engine, t.htmlContent, LayoutOffered(parent), data, validateData)
  }

  /** The body of `render` once the layout argument is chosen. */
  function RenderWith(engine: Engine, html: string, layout: Option<string>, data: Payload, validateData: bool): (r: Result<string, RenderError>)
    ensures Blank(html) ==> r == Err(MissingHtml)
    ensures r.Ok? ==> Validate(engine, BuildDic(html, layout)).Ok?
    ensures r.Ok? && validateData ==> forall v :: v in engine.undeclaredVariables(html) ==> v in data
    ensures r.Err? && r.error.MissingVariable? ==>
      validateData && r.error.name in engine.undeclaredVariables(html) && r.error.name !in data
    ensures !Blank(html) && Validate(engine, BuildDic(html, layout)).Err? ==>
      r == Err(Validate(engine, BuildDic(html, layout)).error)
    ensures !Blank(html) && Validate(engine, BuildDic(html, layout)).Ok?
            && (validateData ==> forall v :: v in engine.undeclaredVariables(html) ==> v in data) ==>
      r == match engine.evaluate(BuildDic(html, layout), data)
           case Ok(out) => Ok(out)
           case Err(m) => Err(EngineFailure(m))
  {
    if Blank(html) then Err(MissingHtml)
    else
      var docs := BuildDic(html, layout);
      match Validate(engine, docs)
      case Err(e) => Err(e)
      case Ok(parsed) =>
        var missing := if validateData then FirstMissing(engine.undeclaredVariables(parsed), data.Keys) else None;
        if missing.Some? then Err(MissingVariable(missing.value))
        else
          match engine.evaluate(docs, data)
          case Err(m) => Err(EngineFailure(m))
          case Ok(out) => Ok(out)
  }

  /** A template with no HTML is refused before anything is parsed, whatever
      the engine does. */
  lemma {:induction false} EmptyHtmlRefused(engine: Engine, t: MailTemplate, parent: Option<MailTemplate>, data: Payload, validateData: bool)
    requires parent.Some? <==> t.parent.Some?
    requires Blank(t.htmlContent)
    ensures Render(engine, t, parent, data, validateData) == Err(MissingHtml)
  {
  }

  /** The plain body plays no part in `render`. */
  lemma {:induction false} RenderIgnoresPlainContent(engine: Engine, t: MailTemplate, plain: string, parent: Option<MailTemplate>, data: Payload, validateData: bool)
    requires parent.Some? <==> t.parent.Some?
    ensures Render(engine, t, parent, data, validateData) == Render(engine, t.(plainContent := plain), parent, data, validateData)
  {
  }

  /** Strict mode with a variable the payload lacks fails with a missing
      variable, and what the engine would evaluate plays no part: the
      result is the same under any evaluator. */
  lemma {:induction false} StrictMissingStopsBeforeEvaluation(engine: Engine, html: string, layout: Option<string>, data: Payload,
                                                              v: string, other: (Documents, Payload) -> Result<string, string>)
    requires !Blank(html)
    requires Validate(engine, BuildDic(html, layout)).Ok?
    requires v in engine.undeclaredVariables(html) && v !in data
    ensures RenderWith(engine, html, layout, data, true).Err?
    ensures RenderWith(engine, html, layout, data, true).error.MissingVariable?
    ensures RenderWith(engine, html, layout, data, true) == RenderWith(engine.(evaluate := other), html, layout, data, true)
  {
    var vars := engine.undeclaredVariables(html);
    var k :| 0 <= k < |vars| && vars[k] == v;
    assert FirstMissing(vars, data.Keys).Some?;
  }

  /** Non-strict mode checks no variable: once the document set validates,
      the result is the engine's evaluation of the HTML channel. */
  lemma {:induction false} LenientRendersDirectly(engine: Engine, html: string, layout: Option<string>, data: Payload)
    requires !Blank(html)
    requires Validate(engine, BuildDic(html, layout)).Ok?
    ensures RenderWith(engine, html, layout, data, false) ==
      match engine.evaluate(BuildDic(html, layout), data)
      case Ok(out) => Ok(out)
      case Err(m) => Err(EngineFailure(m))
  {
  }

  /** As written, a parent layout never reaches the engine: the parent's HTML
      is offered only when blank, and `build_dic` drops a blank layout. So a
      child extending `layout.html` is rendered without its layout. */
  lemma {:induction false} RenderNeverLoadsLayout(t: MailTemplate, parent: Option<MailTemplate>)
    ensures BuildDic(t.htmlContent, LayoutOffered(parent)) == map[IndexFile := t.htmlContent]
  {
  }

  /** Counterexample for the lemma above: a parent with a real layout and a
      child that extends it still leave the engine without `layout.html`. */
  lemma RenderDropsRealLayout(parent: MailTemplate)
    requires parent.htmlContent == "<html>{% block content %}{% endblock %}</html>"
    ensures LayoutFile !in BuildDic("{% extends 'layout.html' %}", LayoutOffered(Some(parent)))
  {
  }

  /** The evidently intended layout choice: the parent's HTML, when the
      template has a parent. */
  function IntendedLayout(parent: Option<MailTemplate>): (layout: Option<string>)
    ensures layout.Some? <==> parent.Some?
    ensures layout.Some? ==> layout.value == parent.value.htmlContent
  {
    if parent.Some? then Some(parent.value.htmlContent) else None
  }

  /** `render` with the intended layout choice. */
  function RenderWithLayout(engine: Engine, t: MailTemplate, parent: Option<MailTemplate>, data: Payload, validateData: bool): Result<string, RenderError>
  {
    RenderWith(engine, t.htmlContent, IntendedLayout(parent), data, validateData)
  }

  /** With the intended choice the engine sees the parent's layout exactly
      when the parent has HTML, and a child that does not extend it is
      refused instead of being rendered without it. */
  lemma {:induction false} RenderWithLayoutLoadsParent(engine: Engine, t: MailTemplate, parent: MailTemplate, data: Payload, validateData: bool)
    requires !Blank(t.htmlContent) && !Blank(parent.htmlContent)
    ensures BuildDic(t.htmlContent, IntendedLayout(Some(parent))) ==
      map[IndexFile := t.htmlContent, LayoutFile := parent.htmlContent]
    ensures engine.parses(t.htmlContent) && LayoutFile !in engine.referencedTemplates(t.htmlContent) ==>
      RenderWithLayout(engine, t, Some(parent), data, validateData) == Err(MissingExtends)
  {
  }
}

=== FILE: mails.dfy ===
/** One outbound message (`Mail`) and its delivery state: the defaults of a
    fresh row, the retry transition (`mark_retry`) and the delivery
    transition (`mark_as_sent`). Timestamps are integer seconds; `now` is the
    clock reading the source takes from `datetime.utcnow()`. */
module Mails {
  import opened Common
  import Clients
  import Templates

  /** Surrogate primary key of a mail row; rows are visited in its order. */
  type MailId = nat

  const SecondsPerHour := 3600

  datatype Mail = Mail(
    fromEmail: string,
    toEmail: string,
    subject: string,
    payload: string,
    plainContent: string,
    htmlContent: string,
    sentDate: Option<int>,       // null until delivered
    lastError: string,
    retries: int,
    nextRetryDate: Option<int>,  // null: no retry scheduled
    owner: Clients.ClientPk,
    template: Templates.TemplateId,
    created: int)                // set when the row is inserted

  /** A row as first stored: no delivery, no error, no retry scheduled. */
  function NewMail(owner: Clients.ClientPk, template: Templates.TemplateId, fromEmail: string, toEmail: string,
                   subject: string, payload: string, plainContent: string, htmlContent: string, created: int): (m: Mail)
    ensures m.retries == 0 && m.sentDate.None? && m.nextRetryDate.None? && m.lastError == ""
    ensures m.owner == owner && m.template == template && m.created == created
  {
    Mail(fromEmail, toEmail, subject, payload, plainContent, htmlContent, None, "", 0, None, owner, template, created)
  }

  /** `mark_retry`: below the template's cap, record the error, count the
      attempt and schedule the next one `retries` hours ahead (new count);
      at or above the cap, change nothing. */
  function MarkRetry(m: Mail, maxRetries: int, lastError: string, now: int): (r: Mail)
    ensures r.retries > m.retries <==> m.retries < maxRetries
    ensures m.retries <= r.retries <= m.retries + 1
    ensures m.retries < maxRetries ==> r.retries <= maxRetries
    ensures r.retries > m.retries ==>
      r.lastError == lastError && r.nextRetryDate == Some(now + r.retries * SecondsPerHour)
    ensures r.retries == m.retries ==> r == m
    ensures r.sentDate == m.sentDate && r.template == m.template && r.created == m.created
  {
    if m.retries < maxRetries then
      var n := m.retries + 1;
      m.(lastError := lastError, retries := n, nextRetryDate := Some(now + n * SecondsPerHour))
    else m
  }

  /** `mark_as_sent`. */
  function MarkAsSent(m: Mail, now: int): (r: Mail)
    ensures r.sentDate == Some(now)
    ensures r.(sentDate := m.sentDate) == m
  {
    m.(sentDate := Some(now))
  }

  lemma {:induction false} MarkRetryAtCapIsNoop(m: Mail, maxRetries: int, lastError: string, now: int)
    requires m.retries >= maxRetries
    ensures MarkRetry(m, maxRetries, lastError, now) == m
  {
  }

  /** Below the cap exactly three fields change: the count goes up by one,
      the error is stored, and the next attempt is due `retries` hours (new
      count) after `now`. */
  lemma {:induction false} MarkRetryBelowCap(m: Mail, maxRetries: int, lastError: string, now: int)
    requires m.retries < maxRetries
    ensures var r := MarkRetry(m, maxRetries, lastError, now);
      && r.retries == m.retries + 1
      && r.lastError == lastError
      && r.nextRetryDate == Some(now + r.retries * SecondsPerHour)
      && r == m.(retries := r.retries, lastError := r.lastError, nextRetryDate := r.nextRetryDate)
  {
  }

  /** `mark_as_sent` stamps `now` and leaves every other field as it was. */
  lemma {:induction false} MarkAsSentOnlyStamps(m: Mail, now: int)
    ensures MarkAsSent(m, now).sentDate == Some(now)
    ensures MarkAsSent(m, now).(sentDate := m.sentDate) == m
  {
  }

  /** A series of failed attempts, each with its error text and clock. */
  datatype Failure = Failure(error: string, at: int)

  function RetryAll(m: Mail, maxRetries: int, failures: seq<Failure>): Mail
    decreases |failures|
  {
    if failures == [] then m
    else RetryAll(MarkRetry(m, maxRetries, failures[0].error, failures[0].at), maxRetries, failures[1..])
  }

  function Min(a: int, b: int): int
  {
    if a <= b then a else b
  }

  /** However many failures are recorded, a count within the cap stays
      within it, never decreases, rises by one per failure until the cap, and
      the delivery stamp is never touched. */
  lemma {:induction false} RetriesStayBounded(m: Mail, maxRetries: int, failures: seq<Failure>)
    requires m.retries <= maxRetries
    ensures var r := RetryAll(m, maxRetries, failures);
      && m.retries <= r.retries <= maxRetries
      && r.retries == Min(maxRetries, m.retries + |failures|)
      && r.sentDate == m.sentDate
    decreases |failures|
  {
    if failures != [] {
      RetriesStayBounded(MarkRetry(m, maxRetries, failures[0].error, failures[0].at), maxRetries, failures[1..]);
    }
  }

  /** Once the cap is reached the row is frozen: further failures change no
      field at all. */
  lemma {:induction false} ExhaustedIsFrozen(m: Mail, maxRetries: int, failures: seq<Failure>)
    requires m.retries >= maxRetries
    ensures RetryAll(m, maxRetries, failures) == m
    decreases |failures|
  {
    if failures != [] {
      ExhaustedIsFrozen(m, maxRetries, failures[1..]);
    }
  }
}

=== FILE: maintenance.dfy ===
/** The retention purge (`EmailsMaintenanceService.purge`): one statement
    deleting delivered mails created before a cutoff `older_than_days` days
    before `now`. Timestamps are integer seconds. */
module Maintenance {
  import opened Common
  import opened Mails
  import opened Dispatch
  import Templates

  const SecondsPerDay := 86400

  /** The delete condition: delivered, and created strictly before
      `now - olderThanDays` days. */
  predicate Expired(m: Mail, now: int, olderThanDays: int)
  {
    m.sentDate.Some? && now - olderThanDays * SecondsPerDay > m.created
  }

  /** `purge`: every expired row goes, every other row stays as it was. */
  function Purge(table: MailTable, now: int, olderThanDays: int): (r: MailTable)
    ensures forall id :: id in r <==> id in table && !Expired(table[id], now, olderThanDays)
    ensures forall id :: id in r ==> r[id] == table[id]
  {
    map id | id in table && !Expired(table[id], now, olderThanDays) :: table[id]
  }

  /** A mail not yet delivered is never purged, however old; a delivered
      one is kept exactly when it was created at or after the cutoff. */
  lemma {:induction false} PurgeKeepsUndelivered(table: MailTable, now: int, olderThanDays: int, id: MailId)
    requires id in table
    ensures table[id].sentDate.None? ==> id in Purge(table, now, olderThanDays)
    ensures table[id].sentDate.Some? ==>
      (id in Purge(table, now, olderThanDays) <==> table[id].created >= now - olderThanDays * SecondsPerDay)
  {
  }

  /** Purging twice with the same arguments removes nothing more. */
  lemma {:induction false} PurgeIdempotent(table: MailTable, now: int, olderThanDays: int)
    ensures Purge(Purge(table, now, olderThanDays), now, olderThanDays) == Purge(table, now, olderThanDays)
  {
    var once := Purge(table, now, olderThanDays);
    var twice := Purge(once, now, olderThanDays);
    assert twice.Keys == once.Keys;
  }

  /** A longer retention period purges a subset of what a shorter one
      purges. */
  lemma {:induction false} LongerRetentionKeepsMore(table: MailTable, now: int, shorter: int, longer: int)
    requires shorter <= longer
    ensures Purge(table, now, shorter).Keys <= Purge(table, now, longer).Keys
  {
    forall id | id in Purge(table, now, shorter) ensures id in Purge(table, now, longer) {
      assert shorter * SecondsPerDay <= longer * SecondsPerDay;
    }
  }

  /** The purge never touches the dispatch queue: the next pass selects the
      same mails, with the same rows, as it would have without the purge. */
  lemma {:induction false} PurgeLeavesQueueAlone(table: MailTable, templates: Templates.TemplateStore, now: int,
                                                 purgeNow: int, olderThanDays: int)
    ensures EligibleIds(Purge(table, purgeNow, olderThanDays), templates, now) == EligibleIds(table, templates, now)
    ensures forall id :: id in EligibleIds(table, templates, now) ==> Purge(table, purgeNow, olderThanDays)[id] == table[id]
  {
    var purged := Purge(table, purgeNow, olderThanDays);
    forall id | id in EligibleIds(table, templates, now) ensures id in EligibleIds(purged, templates, now) {
      assert !Expired(table[id], purgeNow, olderThanDays);
    }
  }
}

=== FILE: scope_check.dfy ===
/** Endpoint authorization (`oauth2_scope_required`): the route of the
    request is normalised to a key of the configured endpoint table, and the
    request passes when the token's scopes share at least one scope with the
    scopes configured for that endpoint and method. */
module ScopeCheck {
  import opened Common
  import opened Text

  /** `\w` on ASCII text: letters, digits and underscore. */
  predicate IsWordChar(c: char)
  {
    ('a' <= c <= 'z') || ('A' <= c <= 'Z') || ('0' <= c <= '9') || c == '_'
  }

  /** `[^>:]`: a character that may appear in a converter name. */
  predicate IsConverterChar(c: char)
  {
    c != '>' && c != ':'
  }

  /** Length of the longest prefix of `s` whose characters satisfy `p`. */
  function Span(s: string, p: char -> bool): (n: nat)
    ensures n <= |s|
    ensures forall i :: 0 <= i < n ==> p(s[i])
    ensures n < |s| ==> !p(s[n])
  {
    if s == [] || !p(s[0]) then 0 else 1 + Span(s[1..], p)
  }

  /** `\w+>` at the start of `s`: the parameter name and the length of the
      match including the closing `>`. */
  function NameThenClose(s: string): (r: Option<(string, nat)>)
    ensures r.Some? ==> && 2 <= r.value.1 <= |s|
                        && r.value.0 == s[..r.value.1 - 1]
                        && s[r.value.1 - 1] == '>'
  {
    var n := Span(s, IsWordChar);
    if 0 < n < |s| && s[n] == '>' then Some((s[..n], n + 1)) else None
  }

  /** A path parameter component `<name>` or `<converter:name>` at the
      start of `s`, as the pattern `<(?:([^>:]+):)?(\w+)>` matches it: the
      parameter name and the length of the component. The converter form is
      tried first; the pattern cannot match it in any other way, because a
      converter name holds no `:` and a parameter name no `>`. */
  function ComponentAt(s: string): (r: Option<(string, nat)>)
    ensures r.Some? ==> && 3 <= r.value.1 <= |s|
                        && s[0] == '<' && s[r.value.1 - 1] == '>'
                        && r.value.0 != [] && |r.value.0| + 2 <= r.value.1
  {
    if s == [] || s[0] != '<' then None
    else
      var body := s[1..];
      var c := Span(body, IsConverterChar);
      var converted := if 0 < c < |body| && body[c] == ':' then NameThenClose(body[c + 1..]) else None;
      if converted.Some? then Some((converted.value.0, c + 2 + converted.value.1))
      else
        var plain := NameThenClose(body);
        if plain.Some? then Some((plain.value.0, 1 + plain.value.1)) else None
  }

  /** `re.sub` of the parameter pattern with `{name}`: every component,
      scanned left to right without overlap, becomes its name in braces. */
  function SubstituteParameters(s: string): (r: string)
    ensures |r| <= |s|
    ensures '<' !in s ==> r == s
    decreases |s|
  {
    if s == [] then []
    else
      var m := ComponentAt(s);
      if m.Some? then "{" + m.value.0 + "}" + SubstituteParameters(s[m.value.1..])
      else [s[0]] + SubstituteParameters(s[1..])
  }

  /** A character other than `<` is copied. */
  lemma {:induction false} SubstituteSkipsChar(s: string)
    requires s != [] && s[0] != '<'
    ensures SubstituteParameters(s) == [s[0]] + SubstituteParameters(s[1..])
  {
    assert ComponentAt(s).None?;
  }

  /** A text without `<` in front of the rest is copied unchanged. */
  lemma {:induction false} SubstituteAfterLiteral(lit: string, rest: string)
    requires '<' !in lit
    ensures SubstituteParameters(lit + rest) == lit + SubstituteParameters(rest)
    decreases |lit|
  {
    if lit != [] {
      var s := lit + rest;
      var tail := lit[1..];
      assert s[1..] == tail + rest;
      assert '<' !in tail;
      SubstituteSkipsChar(s);
      SubstituteAfterLiteral(tail, rest);
      assert lit == [lit[0]] + tail;
    } else {
      assert lit + rest == rest;
    }
  }

  predicate AllWordChars(name: string)
  {
    forall i :: 0 <= i < |name| ==> IsWordChar(name[i])
  }

  predicate AllConverterChars(conv: string)
  {
    forall i :: 0 <= i < |conv| ==> IsConverterChar(conv[i])
  }

  /** The span of a run that is followed by a non-matching character (or
      by nothing) is the run's length. */
  lemma {:induction false} SpanOfRun(run: string, tail: string, p: char -> bool)
    requires forall i :: 0 <= i < |run| ==> p(run[i])
    requires tail == [] || !p(tail[0])
    ensures Span(run + tail, p) == |run|
    decreases |run|
  {
    var s := run + tail;
    if run == [] {
      assert s == tail;
    } else {
      assert s[0] == run[0];
      assert s[1..] == run[1..] + tail;
      SpanOfRun(run[1..], tail, p);
    }
  }

  /** `\w+` followed by `>` is matched in full. */
  lemma {:induction false} NameThenCloseMatches(name: string, rest: string)
    requires name != [] && AllWordChars(name)
    ensures NameThenClose(name + ">" + rest) == Some((name, |name| + 1))
  {
    var s := name + (">" + rest);
    assert name + ">" + rest == s;
    SpanOfRun(name, ">" + rest, IsWordChar);
    assert s[|name|] == '>';
    assert s[..|name|] == name;
  }

  /** How `ComponentAt` reads a converter component. */
  lemma {:induction false} ComponentAtConverter(s: string, c: nat)
    requires s != [] && s[0] == '<'
    requires c == Span(s[1..], IsConverterChar) && 0 < c < |s| - 1 && s[1..][c] == ':'
    requires NameThenClose(s[1..][c + 1..]).Some?
    ensures ComponentAt(s) == Some((NameThenClose(s[1..][c + 1..]).value.0, c + 2 + NameThenClose(s[1..][c + 1..]).value.1))
  {
  }

  /** `<converter:name>` becomes `{name}`. */
  lemma {:induction false} ConverterComponent(conv: string, name: string, rest: string)
    requires conv != [] && AllConverterChars(conv)
    requires name != [] && AllWordChars(name)
    ensures SubstituteParameters("<" + conv + ":" + name + ">" + rest) == "{" + name + "}" + SubstituteParameters(rest)
  {
    var tail := name + ">" + rest;
    var body := conv + (":" + tail);
    var s := "<" + conv + ":" + name + ">" + rest;
    assert s == "<" + body;
    assert s[1..] == body;
    SpanOfRun(conv, ":" + tail, IsConverterChar);
    assert body[|conv|] == ':';
    assert body[|conv| + 1..] == tail;
    NameThenCloseMatches(name, rest);
    assert Span(s[1..], IsConverterChar) == |conv| && s[1..][|conv|] == ':';
    assert NameThenClose(s[1..][|conv| + 1..]) == Some((name, |name| + 1));
    ComponentAtConverter(s, |conv|);
    assert s[|conv| + |name| + 3..] == rest;
  }

  /** How `ComponentAt` reads a component without a converter. */
  lemma {:induction false} ComponentAtPlain(s: string, c: nat)
    requires s != [] && s[0] == '<'
    requires c == Span(s[1..], IsConverterChar) && c < |s| - 1 && s[1..][c] != ':'
    requires NameThenClose(s[1..]).Some?
    ensures ComponentAt(s) == Some((NameThenClose(s[1..]).value.0, 1 + NameThenClose(s[1..]).value.1))
  {
  }

  /** `<name>` becomes `{name}`. */
  lemma {:induction false} PlainComponent(name: string, rest: string)
    requires name != [] && AllWordChars(name)
    ensures SubstituteParameters("<" + name + ">" + rest) == "{" + name + "}" + SubstituteParameters(rest)
  {
    var body := name + (">" + rest);
    var s := "<" + name + ">" + rest;
    assert s == "<" + body;
    assert s[1..] == body;
    assert AllConverterChars(name) by {
      forall i | 0 <= i < |name| ensures IsConverterChar(name[i]) {
        assert IsWordChar(name[i]);
      }
    }
    SpanOfRun(name, ">" + rest, IsConverterChar);
    assert body[|name|] == '>';
    NameThenCloseMatches(name, rest);
    ComponentAtPlain(s, |name|);
    assert s[|name| + 2..] == rest;
  }

  /** The endpoint key of a simplified route: components rewritten, then
      `{pk}` renamed `{id}`. */
  function NormalizePath(simplified: string): string
  {
    ReplaceAll(SubstituteParameters(simplified), "{pk}", "{id}")
  }

  /** `<int:pk>` becomes `{pk}`. */
  lemma {:induction false} IntPkComponent(rest: string)
    ensures SubstituteParameters("<int:pk>" + rest) == "{pk}" + SubstituteParameters(rest)
  {
    var conv, name := "int", "pk";
    assert AllConverterChars(conv) by {
      forall i | 0 <= i < |conv| ensures IsConverterChar(conv[i]) {
        assert conv[i] in {'i', 'n', 't'};
      }
    }
    assert AllWordChars(name) by {
      forall i | 0 <= i < |name| ensures IsWordChar(name[i]) {
        assert name[i] in {'p', 'k'};
      }
    }
    var component := "<" + conv + ":" + name + ">";
    assert component == "<int:pk>";
    assert "{" + name + "}" == "{pk}";
    ConverterComponent(conv, name, rest);
  }

  /** A simplified detail route `<prefix><int:pk><suffix>` normalises to
      the configured key `<prefix>{id}<suffix>`, as for
      `/api/v1/mail-templates/<int:pk>/render`. */
  lemma {:induction false} DetailRouteKey(prefix: string, suffix: string)
    requires '<' !in prefix && '{' !in prefix
    requires '<' !in suffix && '{' !in suffix
    ensures NormalizePath(prefix + "<int:pk>" + suffix) == prefix + "{id}" + suffix
  {
    var pk := "{pk}";
    assert pk[0] == '{';
    assert prefix + "<int:pk>" + suffix == prefix + ("<int:pk>" + suffix);
    SubstituteAfterLiteral(prefix, "<int:pk>" + suffix);
    IntPkComponent(suffix);
    assert SubstituteParameters(prefix + "<int:pk>" + suffix) == prefix + pk + suffix;
    ReplaceAfterLiteral(prefix, pk, "{id}", suffix);
    ReplaceWithoutOccurrence(suffix, pk, "{id}");
  }

  /** Per-method configuration: `name`, `desc` and `scopes`, each the value
      of its setting (`None`: the environment variable is unset). */
  type MethodConfig = map<string, Option<string>>

  /** `OAUTH2.CLIENT.ENDPOINTS`: endpoint key to lower-case method to its
      configuration. */
  type EndpointTable = map<string, map<string, MethodConfig>>

  /** The introspection result attached to the request. */
  type TokenInfo = map<string, string>

  const ScopesKey := "scopes"
  const ScopeClaim := "scope"

  /** Why a request is refused. `NoEndpoint` and `NoMethod` are told apart
      here, but both raise the same message. */
  datatype Denial = NoTokenInfo | NoEndpoint | NoMethod | NoRequiredScope | ScopeMismatch
  datatype Decision = Granted | Denied(reason: Denial)

  /** The message each denial raises `PermissionDenied` with. */
  function Message(d: Denial): string
  {
    match d
    case NoTokenInfo => "token info not present."
    case NoEndpoint => "endpoint info not present."
    case NoMethod => "endpoint info not present."
    case NoRequiredScope => "required scope not present."
    case ScopeMismatch => "token scopes not present"
  }

  function RequiredScope(config: MethodConfig): Option<string>
  {
    if ScopesKey in config then config[ScopesKey] else None
  }

  /** The whitespace-separated scope sets intersect. */
  predicate SharesScope(required: string, current: string)
  {
    Words(required, IsUnicodeSpace) * Words(current, IsUnicodeSpace) != {}
  }

  /** The decision on an already normalised path and lower-cased method:
      no token, no (or an empty) entry for the path, no (or an empty) entry
      for the method, and an empty required scope are refused in that order;
      then the request passes exactly when the token carries a scope claim
      sharing a scope with the required ones. */
  function Decide(tokenInfo: Option<TokenInfo>, path: string, verb: string, endpoints: EndpointTable): (d: Decision)
    ensures d == Granted <==>
      && tokenInfo.Some?
      && path in endpoints && verb in endpoints[path] && endpoints[path][verb] != map[]
      && !IsEmpty(RequiredScope(endpoints[path][verb]))
      && ScopeClaim in tokenInfo.value
      && SharesScope(RequiredScope(endpoints[path][verb]).value, tokenInfo.value[ScopeClaim])
    ensures tokenInfo.None? <==> d == Denied(NoTokenInfo)
    ensures d == Denied(NoEndpoint) <==> tokenInfo.Some? && (path !in endpoints || endpoints[path] == map[])
    ensures d == Denied(NoMethod) <==>
      && tokenInfo.Some? && path in endpoints && endpoints[path] != map[]
      && (verb !in endpoints[path] || endpoints[path][verb] == map[])
    ensures d == Denied(NoRequiredScope) <==>
      && tokenInfo.Some? && path in endpoints && endpoints[path] != map[]
      && verb in endpoints[path] && endpoints[path][verb] != map[]
      && IsEmpty(RequiredScope(endpoints[path][verb]))
  {
    if tokenInfo.None? then Denied(NoTokenInfo)
    else if path !in endpoints || endpoints[path] == map[] then Denied(NoEndpoint)
    else
      var methods := endpoints[path];
      if verb !in methods || methods[verb] == map[] then Denied(NoMethod)
      else
        var required := RequiredScope(methods[verb]);
        if IsEmpty(required) then Denied(NoRequiredScope)
        else if ScopeClaim in tokenInfo.value && SharesScope(required.value, tokenInfo.value[ScopeClaim]) then Granted
        else Denied(ScopeMismatch)
  }

  /** The decorator as a whole: the route simplified by Django's
      `simplify_regex` (a parameter here) and normalised, the method
      lower-cased, then the decision. */
  function Authorize(tokenInfo: Option<TokenInfo>, route: string, verb: string, simplify: string -> string,
                     endpoints: EndpointTable): Decision
  {
    Decide(tokenInfo, NormalizePath(simplify(route)), Lower(verb), endpoints)
  }

  /** The method is compared without regard to ASCII case: a request
      with the method in any case is decided as with it lower-cased. */
  lemma {:induction false} MethodCaseIgnored(tokenInfo: Option<TokenInfo>, route: string, verb: string,
                                             simplify: string -> string, endpoints: EndpointTable)
    ensures Authorize(tokenInfo, route, verb, simplify, endpoints) == Authorize(tokenInfo, route, Lower(verb), simplify, endpoints)
  {
    LowerIdempotent(verb);
  }

  /** Every refusal before the scope comparison is decided by the
      configuration alone: any two tokens get the same one. */
  lemma {:induction false} ConfigurationDenialsIgnoreToken(t1: TokenInfo, t2: TokenInfo, path: string, verb: string, endpoints: EndpointTable)
    ensures var d := Decide(Some(t1), path, verb, endpoints);
      d.Denied? && d.reason != ScopeMismatch ==> Decide(Some(t2), path, verb, endpoints) == d
  {
  }

  /** Adding scopes to a token never takes a grant away. */
  lemma {:induction false} MoreScopesKeepGrant(t1: TokenInfo, t2: TokenInfo, path: string, verb: string, endpoints: EndpointTable)
    requires ScopeClaim in t1 && ScopeClaim in t2
    requires Words(t1[ScopeClaim], IsUnicodeSpace) <= Words(t2[ScopeClaim], IsUnicodeSpace)
    ensures Decide(Some(t1), path, verb, endpoints) == Granted ==> Decide(Some(t2), path, verb, endpoints) == Granted
  {
    if Decide(Some(t1), path, verb, endpoints) == Granted {
      var required := RequiredScope(endpoints[path][verb]).value;
      var w :| w in Words(required, IsUnicodeSpace) * Words(t1[ScopeClaim], IsUnicodeSpace);
      assert w in Words(required, IsUnicodeSpace) * Words(t2[ScopeClaim], IsUnicodeSpace);
    }
  }

  /** A token whose scope claim is the space-joined list of configured
      scopes passes every endpoint whose required scope is in that list and
      names at least one scope. */
  lemma {:induction false} JoinedScopesPass(token: TokenInfo, scopes: seq<string>, path: string, verb: string, endpoints: EndpointTable)
    requires ScopeClaim in token && token[ScopeClaim] == JoinSpace(scopes)
    requires path in endpoints && verb in endpoints[path] && endpoints[path][verb] != map[]
    requires RequiredScope(endpoints[path][verb]).Some?
    requires RequiredScope(endpoints[path][verb]).value in scopes
    requires Words(RequiredScope(endpoints[path][verb]).value, IsUnicodeSpace) != {}
    ensures Decide(Some(token), path, verb, endpoints) == Granted
  {
    var required := RequiredScope(endpoints[path][verb]).value;
    var w :| w in Words(required, IsUnicodeSpace);
    var i :| 0 <= i < |scopes| && scopes[i] == required;
    JoinSpaceKeepsWords(scopes, IsUnicodeSpace);
    assert w in Words(JoinSpace(scopes), IsUnicodeSpace);
    assert required != "";
  }

  /** A required scope naming no scope at all (empty or only whitespace) is
      never granted: it is refused as missing when `is_empty` holds of it,
      and otherwise as a mismatch, since no token can share a scope with
      it. */
  lemma {:induction false} BlankRequiredScopeNeverGrants(token: TokenInfo, path: string, verb: string,
                                                         endpoints: EndpointTable, scope: string)
    requires path in endpoints && verb in endpoints[path]
    requires RequiredScope(endpoints[path][verb]) == Some(scope)
    requires Words(scope, IsUnicodeSpace) == {}
    ensures Decide(Some(token), path, verb, endpoints).Denied?
    ensures IsEmpty(Some(scope)) ==> Decide(Some(token), path, verb, endpoints) == Denied(NoRequiredScope)
    ensures !IsEmpty(Some(scope)) ==> Decide(Some(token), path, verb, endpoints) == Denied(ScopeMismatch)
  {
  }

  /** A scope of one space names no scope. */
  lemma {:induction false} SpaceNamesNoScope()
    ensures Words(" ", IsUnicodeSpace) == {}
  {
    assert Split(" ", IsUnicodeSpace) == Split("", IsUnicodeSpace);
  }
}

=== FILE: settings.dfy ===
/** The settings the core reads: the supported template locales and the
    endpoint table `OAUTH2.CLIENT.ENDPOINTS`. Environment variables are a
    parameter `env` (`None`: unset); display names and descriptions are kept
    untranslated. */
module Settings {
  import opened Common
  import opened Text
  import opened ScopeCheck

  /** The keys of `SUPPORTED_LOCALES`. */
  const SupportedLocales: set<string> := {"en", "es", "fr"}

  /** The environment: variable name to value. */
  type Environment = string -> Option<string>

  /** One method entry of the endpoint table. */
  function Entry(name: string, desc: string, scopes: Option<string>): (c: MethodConfig)
    ensures c != map[] && RequiredScope(c) == scopes
  {
    var c := map["name" := Some(name), "desc" := Some(desc), ScopesKey := scopes];
    assert ScopesKey in c && c[ScopesKey] == scopes;
    c
  }

  /** One line of the endpoint table: the path key, the method, its display
      name and description, and the variable holding its required scopes. */
  datatype Row = Row(path: string, verb: string, name: string, desc: string, variable: string)

  /** `OAUTH2.CLIENT.ENDPOINTS`, line by line. */
  const Rows: seq<Row> := [
    Row("/api/v1/clients", "get", "GetAllClients", "Get all Registered Clients", "OAUTH2_SCOPE_LIST_CLIENTS"),
    Row("/api/v1/clients", "post", "AddClient", "Register Client", "OAUTH2_SCOPE_ADD_CLIENT"),
    Row("/api/v1/clients/{id}", "get", "GetClientById", "Get Client By Id", "OAUTH2_SCOPE_READ_CLIENT"),
    Row("/api/v1/clients/{id}", "put", "UpdateClient", "Update Client", "OAUTH2_SCOPE_UPDATE_CLIENT"),
    Row("/api/v1/clients/{id}", "delete", "DeleteClient", "Delete Client", "OAUTH2_SCOPE_DELETE_CLIENT"),
    Row("/api/v1/mail-templates", "get", "GetAllEmailTemplates", "Get All Email Templates", "OAUTH2_SCOPE_LIST_TEMPLATES"),
    Row("/api/v1/mail-templates", "post", "AddEmailTemplate", "Create Email Template", "OAUTH2_SCOPE_ADD_TEMPLATE"),
    Row("/api/v1/mail-templates/{id}", "get", "GetEmailTemplateById", "Get Email Template By Id", "OAUTH2_SCOPE_READ_TEMPLATE"),
    Row("/api/v1/mail-templates/{id}", "put", "UpdateEmailTemplate", "Update Email Template", "OAUTH2_SCOPE_UPDATE_TEMPLATE"),
    Row("/api/v1/mail-templates/{id}", "delete", "DeleteEmailTemplate", "Delete Email Template", "OAUTH2_SCOPE_DELETE_TEMPLATE"),
    Row("/api/v1/mail-templates/{id}/render", "put", "RenderEmailTemplate", "Render Email Template", "OAUTH2_SCOPE_RENDER_TEMPLATE"),
    Row("/api/v1/mail-templates/{id}/allowed-clients/{client_id}", "put", "AddAllowedClientToEmailTemplate",
        "Add Allowed Client to Email Template", "OAUTH2_SCOPE_TEMPLATE_ADD_ALLOWED_CLIENT"),
    Row("/api/v1/mail-templates/{id}/allowed-clients/{client_id}", "delete", "RemoveAllowedClientFromEmailTemplate",
        "Remove Allowed Client from Email Template", "OAUTH2_SCOPE_TEMPLATE_DELETE_ALLOWED_CLIENT"),
    Row("/api/v1/mails", "get", "GetAllEmails", "Get All emails", "OAUTH2_SCOPE_LIST_EMAILS"),
    Row("/api/v1/mails", "post", "SendEmail", "Send Email", "OAUTH2_SCOPE_SEND_EMAIL"),
    Row("/api/v1/mails/sent", "get", "GetAllSentEmails", "Get All Sent emails", "OAUTH2_SCOPE_LIST_EMAILS")
  ]

  function Config(row: Row, env: Environment): MethodConfig
  {
    Entry(row.name, row.desc, env(row.variable))
  }

  /** The nested table the rows describe. */
  function Build(rows: seq<Row>, env: Environment): EndpointTable
    decreases |rows|
  {
    if rows == [] then map[]
    else
      var t := Build(rows[1..], env);
      var r := rows[0];
      var methods := if r.path in t then t[r.path] else map[];
      t[r.path := methods[r.verb := Config(r, env)]]
  }

  /** `p` and `v` name the entry of row `i`. */
  predicate RowAt(rows: seq<Row>, i: int, p: string, v: string)
  {
    0 <= i < |rows| && rows[i].path == p && rows[i].verb == v
  }

  /** Every entry of the built table is the configuration of some row with
      that path and method, and every row has its entry. */
  lemma {:induction false} BuildEntries(rows: seq<Row>, env: Environment)
    ensures forall p, v :: p in Build(rows, env) && v in Build(rows, env)[p] ==>
      exists i :: RowAt(rows, i, p, v) && Build(rows, env)[p][v] == Config(rows[i], env)
    ensures forall i :: 0 <= i < |rows| ==> rows[i].path in Build(rows, env) && rows[i].verb in Build(rows, env)[rows[i].path]
    decreases |rows|
  {
    if rows != [] {
      var t := Build(rows[1..], env);
      var r := rows[0];
      var t' := Build(rows, env);
      BuildEntries(rows[1..], env);
      forall p, v | p in t' && v in t'[p]
        ensures exists i :: RowAt(rows, i, p, v) && t'[p][v] == Config(rows[i], env)
      {
        if p == r.path && v == r.verb {
          assert RowAt(rows, 0, p, v);
        } else {
          assert p in t && v in t[p] && t'[p][v] == t[p][v];
          var j :| RowAt(rows[1..], j, p, v) && t[p][v] == Config(rows[1..][j], env);
          assert RowAt(rows, j + 1, p, v);
        }
      }
      forall i | 0 <= i < |rows| ensures rows[i].path in t' && rows[i].verb in t'[rows[i].path] {
        if i > 0 {
          assert rows[i] == rows[1..][i - 1];
        }
      }
    }
  }

  /** `OAUTH2.CLIENT.ENDPOINTS`. */
  function Endpoints(env: Environment): EndpointTable
  {
    Build(Rows, env)
  }

  /** The scope variable of each row, in table order. */
  function Variables(rows: seq<Row>): (vs: seq<string>)
    ensures |vs| == |rows|
    ensures forall i :: 0 <= i < |rows| ==> vs[i] == rows[i].variable
  {
    seq(|rows|, i requires 0 <= i < |rows| => rows[i].variable)
  }

  /** Every method entry built from rows (in particular every entry of
      `Endpoints(env)`, built from `Rows`) is non-empty and requires the
      value of its row's scope variable. */
  lemma {:induction false} EntriesReadScopeVariables(rows: seq<Row>, env: Environment)
    ensures forall p, v :: p in Build(rows, env) && v in Build(rows, env)[p] ==>
      && Build(rows, env)[p][v] != map[]
      && exists i :: RowAt(rows, i, p, v) && RequiredScope(Build(rows, env)[p][v]) == env(rows[i].variable)
  {
    BuildEntries(rows, env);
  }

  /** With none of the rows' scope variables set, every request to an
      endpoint built from them is refused for lack of a required scope,
      whatever the token. */
  lemma {:induction false} UnsetScopesRefuseAll(rows: seq<Row>, env: Environment, token: TokenInfo, path: string, verb: string)
    requires forall i :: 0 <= i < |rows| ==> env(rows[i].variable).None?
    requires path in Build(rows, env) && verb in Build(rows, env)[path]
    ensures Decide(Some(token), path, verb, Build(rows, env)) == Denied(NoRequiredScope)
  {
    EntriesReadScopeVariables(rows, env);
  }

  /** The values of the scope variables, as a list. */
  function ScopeValues(env: Environment, vars: seq<string>): (vs: seq<string>)
    requires forall i :: 0 <= i < |vars| ==> env(vars[i]).Some?
    ensures |vs| == |vars|
    ensures forall i :: 0 <= i < |vars| ==> vs[i] == env(vars[i]).value
  {
    seq(|vars|, i requires 0 <= i < |vars| => env(vars[i]).value)
  }

  /** A token whose scope claim joins the values of every row's scope
      variable passes every entry the rows build (for `Rows`: every
      configured endpoint), provided each variable is set and names at least
      one scope. */
  lemma {:induction false} JoinedRowScopesPass(rows: seq<Row>, env: Environment, token: TokenInfo, path: string, verb: string)
    requires forall i :: 0 <= i < |rows| ==> env(rows[i].variable).Some?
    requires forall i :: 0 <= i < |rows| ==> Words(env(rows[i].variable).value, IsUnicodeSpace) != {}
    requires ScopeClaim in token && token[ScopeClaim] == JoinSpace(ScopeValues(env, Variables(rows)))
    requires path in Build(rows, env) && verb in Build(rows, env)[path]
    ensures Decide(Some(token), path, verb, Build(rows, env)) == Granted
  {
    var t := Build(rows, env);
    BuildEntries(rows, env);
    var i :| RowAt(rows, i, path, verb) && t[path][verb] == Config(rows[i], env);
    var values := ScopeValues(env, Variables(rows));
    assert values[i] == RequiredScope(t[path][verb]).value;
    JoinedScopesPass(token, values, path, verb, t);
  }
}

=== FILE: template_writes.dfy ===
/** The checks run when a template is created or updated
    (`MailTemplateWriteSerializer`: `validate`, then `create` or `update`),
    followed by the save into the template table. */
module TemplateWrites {
  import opened Common
  import opened Templates
  import Jinja
  import Clients
  import Text

  /** The fields of a write request; `None` means the key is absent. For
      `parent`, the outer option is the key's presence and the inner one is
      the value, which may be null. */
  datatype WriteData = WriteData(
    fromEmail: Option<string>,
    identifier: Option<string>,
    subject: Option<string>,
    plainContent: Option<string>,
    htmlContent: Option<string>,
    maxRetries: Option<int>,
    isActive: Option<bool>,
    locale: Option<string>,
    parent: Option<Option<TemplateId>>,
    allowedClients: Option<set<Clients.ClientPk>>)
  {
    /** The parent key the request names, if any. */
    function ParentId(): Option<TemplateId>
    {
      if parent.Some? then parent.value else None
    }

    /** Some body, HTML or plain, is given. */
    predicate HasContent()
    {
      !IsEmpty(htmlContent) || !IsEmpty(plainContent)
    }
  }

  datatype WriteError =
    | InvalidParent                     // the parent key names no row
    | Content(renderError: Jinja.RenderError) // a body does not parse or does not extend its layout
    | UnsupportedLocale                 // 'locale ... not supported.'
    | ParentNotRoot                     // 'Parent should be a root on the hierarchy.'
    | FromEmailMandatory                // 'from_email is mandatory.'
    | IdentifierMandatory               // 'identifier is mandatory.'
    | PairTaken                         // 'Already exist an Email Template identifer/locale combination.'
    | ActivationWithoutContent          // 'If you activate the template at least should have a body content'
    | ParentInactive                    // 'If you activate the template, parent should be activated too.'
    | Storage(storeError: StoreError)        // the table's unique constraint
    | FieldRequired(field: string)      // 'This field is required.'
    | FieldBlank(field: string)         // 'This field may not be blank.'
    | FieldTooLong(field: string)       // 'Ensure this field has no more than ... characters.'
    | InvalidSlug                       // the identifier is not a slug
    | IdentifierNotUnique               // the identifier column's unique validator
    | UnknownClient                     // an `allowed_clients` key names no client

  /** Column lengths: `EmailField` and `SlugField` defaults, and the
      declared `max_length` of `subject`. */
  const FromEmailMaxLength := 254
  const IdentifierMaxLength := 50
  const SubjectMaxLength := 256

  /** A character a slug may hold: ASCII letters, digits, `-` and `_`. */
  predicate IsSlugChar(c: char)
  {
    ('a' <= c <= 'z') || ('A' <= c <= 'Z') || ('0' <= c <= '9') || c == '-' || c == '_'
  }

  /** A non-empty run of slug characters. */
  predicate IsSlug(s: string)
  {
    s != [] && forall i :: 0 <= i < |s| ==> IsSlugChar(s[i])
  }

  /** The column constraints of a stored row: sender, slug identifier and
      subject present and within their lengths. */
  predicate WellFormedRow(t: MailTemplate)
  {
    && !Blank(t.fromEmail) && |t.fromEmail| <= FromEmailMaxLength
    && IsSlug(t.identifier) && |t.identifier| <= IdentifierMaxLength
    && !Blank(t.subject) && |t.subject| <= SubjectMaxLength
  }

  /** The request after the field layer: every text column of the model
      (the email, slug and char fields and both bodies) is stripped;
      nothing else changes. */
  function Clean(data: WriteData): (c: WriteData)
    ensures c.fromEmail == Text.StripOpt(data.fromEmail) && c.identifier == Text.StripOpt(data.identifier)
    ensures c.subject == Text.StripOpt(data.subject)
    ensures c.plainContent == Text.StripOpt(data.plainContent) && c.htmlContent == Text.StripOpt(data.htmlContent)
    ensures c.(fromEmail := data.fromEmail, identifier := data.identifier, subject := data.subject,
               plainContent := data.plainContent, htmlContent := data.htmlContent) == data
  {
    data.(fromEmail := Text.StripOpt(data.fromEmail), identifier := Text.StripOpt(data.identifier),
          subject := Text.StripOpt(data.subject), plainContent := Text.StripOpt(data.plainContent),
          htmlContent := Text.StripOpt(data.htmlContent))
  }

  /** Cleaning a cleaned request changes nothing. */
  lemma {:induction false} CleanIdempotent(data: WriteData)
    ensures Clean(Clean(data)) == Clean(data)
  {
    if data.fromEmail.Some? { Text.StripIdempotent(data.fromEmail.value); }
    if data.identifier.Some? { Text.StripIdempotent(data.identifier.value); }
    if data.subject.Some? { Text.StripIdempotent(data.subject.value); }
    if data.plainContent.Some? { Text.StripIdempotent(data.plainContent.value); }
    if data.htmlContent.Some? { Text.StripIdempotent(data.htmlContent.value); }
  }

  /** The `allowed_clients` relation field: every key must name a client. */
  function CheckClients(data: WriteData, clients: set<Clients.ClientPk>): (r: Option<WriteError>)
    ensures r.None? <==> data.allowedClients.None? || data.allowedClients.value <= clients
    ensures r.Some? ==> r.value == UnknownClient
  {
    if data.allowedClients.Some? && !(data.allowedClients.value <= clients) then Some(UnknownClient) else None
  }

  /** One mandatory text column of a request: required on create, never
      blank when given, and within its length. */
  function CheckText(name: string, value: Option<string>, isCreate: bool, maxLength: nat): (r: Option<WriteError>)
    ensures r.None? <==> (value.None? ==> !isCreate) && (value.Some? ==> !Blank(value.value) && |value.value| <= maxLength)
    ensures value.None? && isCreate ==> r == Some(FieldRequired(name))
    ensures value.Some? && Blank(value.value) ==> r == Some(FieldBlank(name))
  {
    if value.None? then (if isCreate then Some(FieldRequired(name)) else None)
    else if Blank(value.value) then Some(FieldBlank(name))
    else if |value.value| > maxLength then Some(FieldTooLong(name))
    else None
  }

  /** Some row other than `self` holds this identifier. */
  predicate IdentifierTakenByOther(store: TemplateStore, identifier: string, self: Option<TemplateId>)
  {
    exists q :: q in store && store[q].identifier == identifier && self != Some(q)
  }

  /** The serializer's field layer, run before `validate`: `from_email`,
      `identifier` and `subject` in declaration order (required on create
      only, since updates are partial), the slug format of `identifier`, and
      the unique validator of `identifier`, which ignores the row being
      updated. The first failing check is reported. */
  function CheckFields(store: TemplateStore, data: WriteData, self: Option<TemplateId>): (r: Option<WriteError>)
    ensures r.None? <==>
      && CheckText("from_email", data.fromEmail, self.None?, FromEmailMaxLength).None?
      && CheckText("identifier", data.identifier, self.None?, IdentifierMaxLength).None?
      && (data.identifier.Some? ==> IsSlug(data.identifier.value) && !IdentifierTakenByOther(store, data.identifier.value, self))
      && CheckText("subject", data.subject, self.None?, SubjectMaxLength).None?
    ensures self.None? && data.fromEmail.None? ==> r == Some(FieldRequired("from_email"))
    ensures r.None? && self.None? ==> WellFormedRow(FromData(data))
    ensures r.None? && self.Some? ==> forall t :: WellFormedRow(t) ==> WellFormedRow(Apply(t, data))
    ensures r.None? && data.identifier.Some? ==>
      forall q :: q in store && Some(q) != self ==> store[q].identifier != data.identifier.value
  {
    var isCreate := self.None?;
    var email := CheckText("from_email", data.fromEmail, isCreate, FromEmailMaxLength);
    var ident := CheckText("identifier", data.identifier, isCreate, IdentifierMaxLength);
    var subject := CheckText("subject", data.subject, isCreate, SubjectMaxLength);
    if email.Some? then email
    else if ident.Some? then ident
    else if data.identifier.Some? && !IsSlug(data.identifier.value) then Some(InvalidSlug)
    else if data.identifier.Some? && IdentifierTakenByOther(store, data.identifier.value, self) then Some(IdentifierNotUnique)
    else if subject.Some? then subject
    else None
  }

  /** The parent row a request names: the relation field refuses a key that
      names no row. */
  function ResolveParent(store: TemplateStore, data: WriteData): (r: Result<Option<MailTemplate>, WriteError>)
    ensures r.Ok? <==> data.ParentId().None? || data.ParentId().value in store
    ensures r.Ok? && data.ParentId().Some? ==> r.value == Some(store[data.ParentId().value])
    ensures r.Ok? && data.ParentId().None? ==> r.value.None?
  {
    match data.ParentId()
    case None => Ok(None)
    case Some(pk) => if pk in store then Ok(Some(store[pk])) else Err(InvalidParent)
  }

  /** One body checked against the parent's body of the same channel, when
      the body is given and non-blank. */
  function ChannelCheck(engine: Jinja.Engine, content: Option<string>, parentContent: Option<string>): (r: Option<Jinja.RenderError>)
    ensures IsEmpty(content) ==> r.None?
    ensures !IsEmpty(content) ==>
      (r.None? <==> Jinja.Validate(engine, Jinja.BuildDic(content.value, parentContent)).Ok?)
  {
    if IsEmpty(content) then None
    else
      match Jinja.Validate(engine, Jinja.BuildDic(content.value, parentContent))
      case Ok(_) => None
      case Err(e) => Some(e)
  }

  function PlainOf(parent: Option<MailTemplate>): Option<string>
  {
    if parent.Some? then Some(parent.value.plainContent) else None
  }

  function HtmlOf(parent: Option<MailTemplate>): Option<string>
  {
    if parent.Some? then Some(parent.value.htmlContent) else None
  }

  /** Some row other than `self` has this identifier and this locale (an
      absent identifier matches no row, an absent locale matches a row
      without one). */
  predicate PairTakenByOther(store: TemplateStore, identifier: Option<string>, locale: Option<string>, self: Option<TemplateId>)
  {
    exists q :: q in store && Some(store[q].identifier) == identifier && store[q].locale == locale && self != Some(q)
  }

  /** `validate`: `parent` is the resolved parent row, `self` the row being
      updated (`None` on create), `locales` the supported locales. On success
      the request is handed back unchanged. */
  function Validate(engine: Jinja.Engine, store: TemplateStore, data: WriteData, parent: Option<MailTemplate>,
                    self: Option<TemplateId>, locales: set<string>): (r: Result<WriteData, WriteError>)
    ensures r.Ok? ==> r.value == data
    ensures r.Ok? ==> ChannelCheck(engine, data.plainContent, PlainOf(parent)).None?
    ensures r.Ok? ==> ChannelCheck(engine, data.htmlContent, HtmlOf(parent)).None?
    ensures r.Ok? ==> IsEmpty(data.locale) || data.locale.value in locales
    ensures r.Ok? ==> parent.None? || !parent.value.HasParent()
    ensures r.Ok? && self.None? ==> !IsEmpty(data.fromEmail) && !IsEmpty(data.identifier)
    ensures r.Ok? ==> !PairTakenByOther(store, data.identifier, data.locale, self)
    ensures
      var plain := ChannelCheck(engine, data.plainContent, PlainOf(parent));
      var html := ChannelCheck(engine, data.htmlContent, HtmlOf(parent));
      var localeOk := IsEmpty(data.locale) || data.locale.value in locales;
      var rootOk := parent.None? || !parent.value.HasParent();
      var fromOk := self.Some? || !IsEmpty(data.fromEmail);
      var identOk := self.Some? || !IsEmpty(data.identifier);
      var pairOk := !PairTakenByOther(store, data.identifier, data.locale, self);
      && (r.Ok? <==> plain.None? && html.None? && localeOk && rootOk && fromOk && identOk && pairOk)
      && (plain.Some? ==> r == Err(Content(plain.value)))
      && (plain.None? && html.Some? ==> r == Err(Content(html.value)))
      && (plain.None? && html.None? && !localeOk ==> r == Err(UnsupportedLocale))
      && (plain.None? && html.None? && localeOk && !rootOk ==> r == Err(ParentNotRoot))
      && (plain.None? && html.None? && localeOk && rootOk && !fromOk ==> r == Err(FromEmailMandatory))
      && (plain.None? && html.None? && localeOk && rootOk && fromOk && !identOk ==> r == Err(IdentifierMandatory))
      && (plain.None? && html.None? && localeOk && rootOk && fromOk && identOk && !pairOk ==> r == Err(PairTaken))
  {
    var plainCheck := ChannelCheck(engine, data.plainContent, PlainOf(parent));
    var htmlCheck := ChannelCheck(engine, data.htmlContent, HtmlOf(parent));
    var isUpdate := self.Some?;
    if plainCheck.Some? then Err(Content(plainCheck.value))
    else if htmlCheck.Some? then Err(Content(htmlCheck.value))
    else if !IsEmpty(data.locale) && data.locale.value !in locales then Err(UnsupportedLocale)
    else if parent.Some? && parent.value.HasParent() then Err(ParentNotRoot)
    else if IsEmpty(data.fromEmail) && !isUpdate then Err(FromEmailMandatory)
    else if IsEmpty(data.identifier) && !isUpdate then Err(IdentifierMandatory)
    else if PairTakenByOther(store, data.identifier, data.locale, self) then Err(PairTaken)
    else Ok(data)
  }

  /** The row `create` stores: the given fields over a row of declared
      defaults. The three mandatory columns have no default; the field layer
      makes sure a create names them. */
  function FromData(data: WriteData): (t: MailTemplate)
    ensures t.fromEmail == (if data.fromEmail.Some? then data.fromEmail.value else "")
    ensures t.identifier == (if data.identifier.Some? then data.identifier.value else "")
    ensures t.subject == (if data.subject.Some? then data.subject.value else "")
    ensures data.plainContent.Some? ==> t.plainContent == data.plainContent.value
    ensures data.plainContent.None? ==> t.plainContent == ""
    ensures data.htmlContent.Some? ==> t.htmlContent == data.htmlContent.value
    ensures data.htmlContent.None? ==> t.htmlContent == ""
    ensures data.maxRetries.Some? ==> t.maxRetries == data.maxRetries.value
    ensures data.maxRetries.None? ==> t.maxRetries == DefaultMaxRetries
    ensures t.isActive <==> data.isActive == Some(true)
    ensures t.parent == data.ParentId()
    ensures data.allowedClients.Some? ==> t.allowedClients == data.allowedClients.value
    ensures data.allowedClients.None? ==> t.allowedClients == {}
    ensures t.locale == data.locale
  {
    Apply(NewTemplate("", "", ""), data)
  }

  /** `create`: an absent `is_active` means inactive; an active template
      needs a body and an active parent. */
  function Create(data: WriteData, parent: Option<MailTemplate>): (r: Result<MailTemplate, WriteError>)
    ensures data.isActive.None? && r.Ok? ==> !r.value.isActive
    ensures data.isActive == Some(true) && !data.HasContent() ==> r == Err(ActivationWithoutContent)
    ensures data.isActive == Some(true) && data.HasContent() && parent.Some? && !parent.value.isActive ==>
      r == Err(ParentInactive)
    ensures r.Ok? <==> data.isActive != Some(true) || (data.HasContent() && (parent.None? || parent.value.isActive))
    ensures r.Ok? ==> r.value.isActive ==> r.value.HasContent()
    ensures r.Ok? ==> r.value == FromData(data)
  {
    var isActive := data.isActive == Some(true);
    if isActive && !data.HasContent() then Err(ActivationWithoutContent)
    else if isActive && parent.Some? && !parent.value.isActive then Err(ParentInactive)
    else Ok(FromData(data))
  }

  /** A field of the stored row after an update: the given value when the
      request has one, the stored one otherwise. */
  function Pick<T>(given: Option<T>, stored: T): (v: T)
    ensures given.Some? ==> v == given.value
    ensures given.None? ==> v == stored
  {
    if given.Some? then given.value else stored
  }

  /** The row `update` stores: given fields replace stored ones. */
  function Apply(t: MailTemplate, data: WriteData): (u: MailTemplate)
    ensures data.fromEmail.Some? ==> u.fromEmail == data.fromEmail.value
    ensures data.fromEmail.None? ==> u.fromEmail == t.fromEmail
    ensures data.identifier.Some? ==> u.identifier == data.identifier.value
    ensures data.identifier.None? ==> u.identifier == t.identifier
    ensures data.subject.Some? ==> u.subject == data.subject.value
    ensures data.subject.None? ==> u.subject == t.subject
    ensures data.plainContent.Some? ==> u.plainContent == data.plainContent.value
    ensures data.plainContent.None? ==> u.plainContent == t.plainContent
    ensures data.htmlContent.Some? ==> u.htmlContent == data.htmlContent.value
    ensures data.htmlContent.None? ==> u.htmlContent == t.htmlContent
    ensures data.maxRetries.Some? ==> u.maxRetries == data.maxRetries.value
    ensures data.maxRetries.None? ==> u.maxRetries == t.maxRetries
    ensures data.isActive.Some? ==> u.isActive == data.isActive.value
    ensures data.isActive.None? ==> u.isActive == t.isActive
    ensures data.parent.Some? ==> u.parent == data.parent.value
    ensures data.parent.None? ==> u.parent == t.parent
    ensures data.allowedClients.Some? ==> u.allowedClients == data.allowedClients.value
    ensures data.allowedClients.None? ==> u.allowedClients == t.allowedClients
    ensures data.locale.Some? ==> u.locale == data.locale
    ensures data.locale.None? ==> u.locale == t.locale
  {
    MailTemplate(
      Pick(data.fromEmail, t.fromEmail),
      Pick(data.identifier, t.identifier),
      Pick(data.subject, t.subject),
      Pick(data.plainContent, t.plainContent),
      Pick(data.htmlContent, t.htmlContent),
      Pick(data.maxRetries, t.maxRetries),
      Pick(data.isActive, t.isActive),
      Pick(data.parent, t.parent),
      Pick(data.allowedClients, t.allowedClients),
      if data.locale.Some? then data.locale else t.locale)
  }

  /** `update`: activation is refused only when neither the request nor the
      stored row has a body. */
  function Update(instance: MailTemplate, data: WriteData): (r: Result<MailTemplate, WriteError>)
    ensures r.Err? <==> data.isActive == Some(true) && !data.HasContent() && !instance.HasContent()
    ensures r.Err? ==> r.error == ActivationWithoutContent
    ensures r.Ok? && data.isActive.None? ==> r.value.isActive == instance.isActive
    ensures r.Ok? && data.htmlContent.None? && data.plainContent.None? ==>
      r.value.htmlContent == instance.htmlContent && r.value.plainContent == instance.plainContent
    ensures r.Ok? && data.identifier.None? && data.locale.None? ==>
      r.value.identifier == instance.identifier && r.value.locale == instance.locale
    ensures r.Ok? ==> r.value == Apply(instance, data)
  {
    var isActiveForUpdate := data.isActive == Some(true);
    if isActiveForUpdate && !data.HasContent() && !instance.HasContent() then Err(ActivationWithoutContent)
    else Ok(Apply(instance, data))
  }

  /** The row a write stores: created from the request, or the target row
      updated by it. */
  function StoredRow(store: TemplateStore, data: WriteData, parent: Option<MailTemplate>,
                     target: Option<TemplateId>): Result<MailTemplate, WriteError>
    requires target.Some? ==> target.value in store
  {
    if target.None? then Create(data, parent) else Update(store[target.value], data)
  }

  /** The checks a resolved request goes through before anything is
      stored, reporting the first failure: the clients, the columns, then
      `validate`. */
  function Admit(engine: Jinja.Engine, store: TemplateStore, data: WriteData, parent: Option<MailTemplate>,
                 target: Option<TemplateId>, clients: set<Clients.ClientPk>, locales: set<string>): (r: Option<WriteError>)
    ensures r.None? <==>
      && CheckClients(data, clients).None?
      && CheckFields(store, data, target).None?
      && Validate(engine, store, data, parent, target, locales).Ok?
    ensures CheckClients(data, clients).Some? ==> r == Some(UnknownClient)
    ensures CheckClients(data, clients).None? && CheckFields(store, data, target).Some? ==>
      r == CheckFields(store, data, target)
  {
    var refs := CheckClients(data, clients);
    var fields := CheckFields(store, data, target);
    if refs.Some? then refs
    else if fields.Some? then fields
    else match Validate(engine, store, data, parent, target, locales)
      case Err(e) => Some(e)
      case Ok(_) => None
  }

  /** Storing an admitted request: build the row, then save it under the
      target's key, or under `newPk` on create. */
  function Commit(store: TemplateStore, data: WriteData, parent: Option<MailTemplate>,
                  target: Option<TemplateId>, newPk: TemplateId): (r: Result<TemplateStore, WriteError>)
    requires target.Some? ==> target.value in store
    requires newPk !in store
    ensures var row := StoredRow(store, data, parent, target);
      var pk := if target.None? then newPk else target.value;
      && (r.Ok? <==> row.Ok? && Save(store, pk, row.value).Ok?)
      && (r.Ok? ==> r.value == store[pk := row.value])
  {
    var pk := if target.None? then newPk else target.value;
    match StoredRow(store, data, parent, target)
    case Err(e) => Err(e)
    case Ok(t) =>
      match Save(store, pk, t)
      case Err(e) => Err(Storage(e))
      case Ok(s) => Ok(s)
  }

  /** A whole write: the field layer (strip the text fields, resolve the
      parent), then the checks, then `create` or `update` and the save.
      `target` is the row being updated (`None` on create); `newPk` is the
      key the table assigns to a created row; `clients` are the client keys.
      A successful write keeps every row but the written one. */
  function Write(engine: Jinja.Engine, store: TemplateStore, data: WriteData, target: Option<TemplateId>,
                 newPk: TemplateId, clients: set<Clients.ClientPk>, locales: set<string>): (r: Result<TemplateStore, WriteError>)
    requires target.Some? ==> target.value in store
    requires newPk !in store
    ensures ResolveParent(store, Clean(data)).Err? ==> r == Err(InvalidParent)
    ensures ResolveParent(store, Clean(data)).Ok? ==>
      var parent := ResolveParent(store, Clean(data)).value;
      && (r.Ok? <==>
            Admit(engine, store, Clean(data), parent, target, clients, locales).None? &&
            Commit(store, Clean(data), parent, target, newPk).Ok?)
      && (r.Ok? ==> r == Commit(store, Clean(data), parent, target, newPk))
    ensures r.Ok? ==> r.value.Keys == store.Keys + {if target.None? then newPk else target.value}
    ensures r.Ok? ==> forall q :: q in store && Some(q) != target ==> r.value[q] == store[q]
  {
    var clean := Clean(data);
    match ResolveParent(store, clean)
    case Err(e) => Err(e)
    case Ok(parent) =>
      match Admit(engine, store, clean, parent, target, clients, locales)
      case Some(e) => Err(e)
      case None => Commit(store, clean, parent, target, newPk)
  }

  /** On update `from_email` and `identifier` may be left out: the mandatory
      checks apply to creation only. */
  lemma {:induction false} MandatoryOnCreateOnly(engine: Jinja.Engine, store: TemplateStore, data: WriteData,
                                                 parent: Option<MailTemplate>, self: TemplateId, locales: set<string>)
    requires self in store
    ensures Validate(engine, store, data.(fromEmail := None), parent, Some(self), locales).Ok? ==
      Validate(engine, store, data, parent, Some(self), locales).Ok?
    ensures data.identifier.None? ==>
      (Validate(engine, store, data.(fromEmail := None), parent, Some(self), locales).Ok? <==>
        && ChannelCheck(engine, data.plainContent, PlainOf(parent)).None?
        && ChannelCheck(engine, data.htmlContent, HtmlOf(parent)).None?
        && (IsEmpty(data.locale) || data.locale.value in locales)
        && (parent.None? || !parent.value.HasParent()))
  {
  }

  /** On create the request must name both `from_email` and `identifier`. */
  lemma {:induction false} CreateNeedsFromEmail(engine: Jinja.Engine, store: TemplateStore, data: WriteData,
                                                parent: Option<MailTemplate>, locales: set<string>)
    requires IsEmpty(data.fromEmail)
    ensures Validate(engine, store, data, parent, None, locales).Err?
  {
  }

  /** A pair held by another row is refused; the row being updated never
      counts against itself. */
  lemma {:induction false} OwnRowNotDuplicate(engine: Jinja.Engine, store: TemplateStore, data: WriteData,
                                              parent: Option<MailTemplate>, self: TemplateId, locales: set<string>)
    requires self in store
    requires data.identifier == Some(store[self].identifier) && data.locale == store[self].locale
    requires PairsUnique(store)
    ensures !PairTakenByOther(store, data.identifier, data.locale, Some(self))
    ensures Validate(engine, store, data, parent, Some(self), locales).Ok? <==>
      && ChannelCheck(engine, data.plainContent, PlainOf(parent)).None?
      && ChannelCheck(engine, data.htmlContent, HtmlOf(parent)).None?
      && (IsEmpty(data.locale) || data.locale.value in locales)
      && (parent.None? || !parent.value.HasParent())
  {
    forall q | q in store && q != self
      ensures (store[q].identifier, store[q].locale) != (store[self].identifier, store[self].locale)
    {
    }
  }

  /** A create naming only the mandatory columns stores the row the model
      declares for them. */
  lemma {:induction false} MinimalCreateIsNewTemplate(fromEmail: string, identifier: string, subject: string)
    ensures var data := WriteData(Some(fromEmail), Some(identifier), Some(subject), None, None, None, None, None, None, None);
      Create(data, None) == Ok(NewTemplate(fromEmail, identifier, subject))
  {
  }

  /** An update naming no field stores the row as it was. */
  lemma {:induction false} EmptyUpdateKeepsRow(instance: MailTemplate)
    ensures Update(instance, WriteData(None, None, None, None, None, None, None, None, None, None)) == Ok(instance)
  {
  }

  /** Repeating an update stores nothing new: the row mapping is
      idempotent, and the repeat is accepted whenever the stored row is not
      an active row without content. */
  lemma {:induction false} UpdateIdempotent(instance: MailTemplate, data: WriteData)
    requires Update(instance, data).Ok?
    ensures Apply(Update(instance, data).value, data) == Update(instance, data).value
    ensures var u := Update(instance, data).value;
      (u.isActive ==> u.HasContent()) ==> Update(u, data) == Ok(u)
  {
  }

  /** The activation guard looks at the stored row, not at the row being
      stored: an update that activates a row and blanks both bodies is
      accepted once, and the same update on its result is refused. */
  lemma {:induction false} ActivationGuardReadsStoredRow(instance: MailTemplate)
    requires instance.HasContent()
    ensures var data := WriteData(None, None, None, Some(""), Some(""), None, Some(true), None, None, None);
      && Update(instance, data).Ok?
      && Update(instance, data).value.isActive
      && !Update(instance, data).value.HasContent()
      && Update(Update(instance, data).value, data) == Err(ActivationWithoutContent)
  {
    var data := WriteData(None, None, None, Some(""), Some(""), None, Some(true), None, None, None);
    assert data.htmlContent == Some("") && data.plainContent == Some("");
    assert !data.HasContent();
  }

  /** A create that names a valid sender and identifier but no subject is
      refused by the field layer, before `validate` runs. */
  lemma {:induction false} CreateNeedsSubject(engine: Jinja.Engine, store: TemplateStore, data: WriteData,
                                              newPk: TemplateId, clients: set<Clients.ClientPk>, locales: set<string>)
    requires newPk !in store
    requires data.parent.None?
    requires data.allowedClients.None? || data.allowedClients.value <= clients
    requires data.fromEmail.Some?
    requires var e := Text.Strip(data.fromEmail.value); !Blank(e) && |e| <= FromEmailMaxLength
    requires data.identifier.Some?
    requires var i := Text.Strip(data.identifier.value);
      IsSlug(i) && |i| <= IdentifierMaxLength && !IdentifierTakenByOther(store, i, None)
    requires data.subject.None?
    ensures Write(engine, store, data, None, newPk, clients, locales) == Err(FieldRequired("subject"))
  {
  }

  /** Whitespace-only bodies are stripped to nothing by the field layer,
      so they do not count as content: such a request cannot create an
      active template. */
  lemma {:induction false} WhitespaceBodiesDoNotActivate(engine: Jinja.Engine, store: TemplateStore, data: WriteData,
                                                         newPk: TemplateId, clients: set<Clients.ClientPk>, locales: set<string>)
    requires newPk !in store
    requires data.isActive == Some(true)
    requires data.htmlContent.Some? && forall i :: 0 <= i < |data.htmlContent.value| ==> Text.IsUnicodeSpace(data.htmlContent.value[i])
    requires data.plainContent.Some? ==> forall i :: 0 <= i < |data.plainContent.value| ==> Text.IsUnicodeSpace(data.plainContent.value[i])
    ensures Write(engine, store, data, None, newPk, clients, locales).Err?
  {
    var clean := Clean(data);
    assert Text.Strip(data.htmlContent.value) == [];
    assert clean.htmlContent == Some("");
    if data.plainContent.Some? {
      assert Text.Strip(data.plainContent.value) == [];
    }
    assert !clean.HasContent();
    if ResolveParent(store, clean).Ok? {
      var parent := ResolveParent(store, clean).value;
      assert Create(clean, parent).Err?;
      assert Commit(store, clean, parent, None, newPk).Err?;
    }
  }

  /** Every write keeps the column constraints of the stored rows: a
      created row has them from the field layer, and an update replaces a
      column only by a value that passed it. */
  lemma {:induction false} WriteKeepsRowsWellFormed(engine: Jinja.Engine, store: TemplateStore, data: WriteData,
                                                    target: Option<TemplateId>, newPk: TemplateId,
                                                    clients: set<Clients.ClientPk>, locales: set<string>)
    requires target.Some? ==> target.value in store
    requires newPk !in store
    requires forall q :: q in store ==> WellFormedRow(store[q])
    ensures Write(engine, store, data, target, newPk, clients, locales).Ok? ==>
      forall q :: q in Write(engine, store, data, target, newPk, clients, locales).value ==>
        WellFormedRow(Write(engine, store, data, target, newPk, clients, locales).value[q])
  {
    var r := Write(engine, store, data, target, newPk, clients, locales);
    if r.Ok? {
      var clean := Clean(data);
      var parent := ResolveParent(store, clean).value;
      assert CheckFields(store, clean, target).None?;
      var pk := if target.None? then newPk else target.value;
      var t := StoredRow(store, clean, parent, target).value;
      assert Save(store, pk, t) == Ok(r.value);
      assert WellFormedRow(t);
      forall q | q in r.value ensures WellFormedRow(r.value[q]) {
        if q != pk {
          assert r.value[q] == store[q];
        }
      }
    }
  }

  /** Every stored row names only existing clients, and every write keeps
      it so. */
  lemma {:induction false} WriteKeepsClientsKnown(engine: Jinja.Engine, store: TemplateStore, data: WriteData,
                                                  target: Option<TemplateId>, newPk: TemplateId,
                                                  clients: set<Clients.ClientPk>, locales: set<string>)
    requires target.Some? ==> target.value in store
    requires newPk !in store
    requires forall q :: q in store ==> store[q].allowedClients <= clients
    ensures Write(engine, store, data, target, newPk, clients, locales).Ok? ==>
      forall q :: q in Write(engine, store, data, target, newPk, clients, locales).value ==>
        Write(engine, store, data, target, newPk, clients, locales).value[q].allowedClients <= clients
  {
    var r := Write(engine, store, data, target, newPk, clients, locales);
    if r.Ok? {
      var clean := Clean(data);
      var parent := ResolveParent(store, clean).value;
      assert CheckClients(clean, clients).None?;
      var pk := if target.None? then newPk else target.value;
      var t := StoredRow(store, clean, parent, target).value;
      assert t.allowedClients <= clients;
      forall q | q in r.value ensures r.value[q].allowedClients <= clients {
        if q != pk {
          assert r.value[q] == store[q];
        }
      }
    }
  }

  /** A created row keeps the table's constraints: unique identifiers (so
      unique identifier/locale pairs), existing parents, and parents that are
      roots. */
  lemma {:induction false} CreatePreservesInvariants(engine: Jinja.Engine, store: TemplateStore, data: WriteData,
                                                     newPk: TemplateId, clients: set<Clients.ClientPk>, locales: set<string>)
    requires newPk !in store
    requires IdentifiersUnique(store) && ParentsExist(store) && ParentsAreRoots(store)
    ensures Write(engine, store, data, None, newPk, clients, locales).Ok? ==>
      var s := Write(engine, store, data, None, newPk, clients, locales).value;
      IdentifiersUnique(s) && PairsUnique(s) && ParentsExist(s) && ParentsAreRoots(s)
  {
    var r := Write(engine, store, data, None, newPk, clients, locales);
    if r.Ok? {
      var clean := Clean(data);
      var parent := ResolveParent(store, clean).value;
      var t := Create(clean, parent).value;
      assert Save(store, newPk, t) == Ok(r.value);
      var s := r.value;
      SavePreservesUniqueIdentifiers(store, newPk, t);
      IdentifiersUniqueImpliesPairsUnique(s);
      assert t.parent == clean.ParentId();
      forall u | u in s && s[u].parent.Some?
        ensures s[u].parent.value in s
        ensures s[s[u].parent.value].parent.None?
      {
        if u == newPk {
          assert parent == Some(store[t.parent.value]);
        } else {
          assert s[u] == store[u];
          assert s[u].parent.value != newPk;
        }
      }
    }
  }

  /** An update that names only a parent is accepted whenever that parent
      is a root, and changes nothing but the updated row's parent. Nothing
      looks at the rows below the updated one. */
  lemma {:induction false} ReparentAccepted(engine: Jinja.Engine, store: TemplateStore, self: TemplateId,
                                            p: TemplateId, newPk: TemplateId, clients: set<Clients.ClientPk>,
                                            locales: set<string>)
    requires self in store && p in store && newPk !in store
    requires !store[p].HasParent()
    requires IdentifiersUnique(store)
    ensures var data := WriteData(None, None, None, None, None, None, None, None, Some(Some(p)), None);
      Write(engine, store, data, Some(self), newPk, clients, locales) == Ok(store[self := store[self].(parent := Some(p))])
  {
    var data := WriteData(None, None, None, None, None, None, None, None, Some(Some(p)), None);
    assert Clean(data) == data;
    assert ResolveParent(store, data) == Ok(Some(store[p]));
    assert CheckFields(store, data, Some(self)).None?;
    assert !PairTakenByOther(store, data.identifier, data.locale, Some(self));
    assert Validate(engine, store, data, Some(store[p]), Some(self), locales).Ok?;
    var t := store[self].(parent := Some(p));
    assert Update(store[self], data) == Ok(t);
    assert Save(store, self, t) == Ok(store[self := t]);
  }

  /** An update may give a parent to a row that already has children: the
      validator only checks that the new parent is a root, so a three-level
      chain can be built. */
  lemma {:induction false} UpdateMayDeepenHierarchy(engine: Jinja.Engine)
    ensures
      var root := MailTemplate("a@b.c", "root", "s", "", "", 1, false, None, {}, None);
      var mid := MailTemplate("a@b.c", "mid", "s", "", "", 1, false, None, {}, None);
      var leaf := MailTemplate("a@b.c", "leaf", "s", "", "", 1, false, Some(1), {}, None);
      var store := map[0 := root, 1 := mid, 2 := leaf];
      var data := WriteData(None, None, None, None, None, None, None, None, Some(Some(0)), None);
      && ParentsAreRoots(store)
      && Write(engine, store, data, Some(1), 3, {}, {"en"}).Ok?
      && !ParentsAreRoots(Write(engine, store, data, Some(1), 3, {}, {"en"}).value)
  {
    var root := MailTemplate("a@b.c", "root", "s", "", "", 1, false, None, {}, None);
    var mid := MailTemplate("a@b.c", "mid", "s", "", "", 1, false, None, {}, None);
    var leaf := MailTemplate("a@b.c", "leaf", "s", "", "", 1, false, Some(1), {}, None);
    var store := map[0 := root, 1 := mid, 2 := leaf];
    assert store.Keys == {0, 1, 2};
    assert IdentifiersUnique(store);
    ReparentAccepted(engine, store, 1, 0, 3, {}, {"en"});
    var s := store[1 := mid.(parent := Some(0))];
    assert s[2].parent == Some(1) && s[1].parent == Some(0);
  }
}

=== FILE: templates.dfy ===
/** Reusable mail templates (`MailTemplate`): their fields and defaults, the
    table-level constraints, and the cascading delete along `parent`. */
module Templates {
  import opened Common
  import Clients

  /** Surrogate primary key of a template row. */
  type TemplateId = nat

  /** Default of `max_retries`. */
  const DefaultMaxRetries := 1

  /** One template row. `locale` is read by the write validator although the
      model class does not declare it, so it is optional here. */
  datatype MailTemplate = MailTemplate(
    fromEmail: string,
    identifier: string,
    subject: string,
    plainContent: string,
    htmlContent: string,
    maxRetries: int,
    isActive: bool,
    parent: Option<TemplateId>,
    allowedClients: set<Clients.ClientPk>,
    locale: Option<string>)
  {
    predicate HasParent() { parent.Some? }

    /** Some body, HTML or plain, is present. */
    predicate HasContent() { !Blank(htmlContent) || !Blank(plainContent) }
  }

  /** The template table, keyed by primary key. */
  type TemplateStore = map<TemplateId, MailTemplate>

  /** A row as created from the mandatory columns alone: every other column
      takes its declared default. */
  function NewTemplate(fromEmail: string, identifier: string, subject: string): (t: MailTemplate)
    ensures t.fromEmail == fromEmail && t.identifier == identifier && t.subject == subject
    ensures t.plainContent == "" && t.htmlContent == ""
    ensures t.maxRetries == 1 && !t.isActive
    ensures !t.HasParent() && t.allowedClients == {} && t.locale.None?
    ensures !t.HasContent()
  {
    MailTemplate(fromEmail, identifier, subject, "", "", DefaultMaxRetries, false, None, {}, None)
  }

  /** `identifier` is unique across the table. */
  predicate IdentifiersUnique(store: TemplateStore)
  {
    forall p, q :: p in store && q in store && p != q ==> store[p].identifier != store[q].identifier
  }

  /** Every `parent` reference names an existing row. */
  predicate ParentsExist(store: TemplateStore)
  {
    forall t :: t in store && store[t].parent.Some? ==> store[t].parent.value in store
  }

  /** Every parent is a root: the hierarchy is at most two levels deep. */
  predicate ParentsAreRoots(store: TemplateStore)
  {
    forall t :: t in store && store[t].parent.Some? && store[t].parent.value in store ==>
      store[store[t].parent.value].parent.None?
  }

  /** The `(identifier, locale)` pair is unique across the table. */
  predicate PairsUnique(store: TemplateStore)
  {
    forall p, q :: p in store && q in store && p != q ==>
      (store[p].identifier, store[p].locale) != (store[q].identifier, store[q].locale)
  }

  lemma {:induction false} IdentifiersUniqueImpliesPairsUnique(store: TemplateStore)
    requires IdentifiersUnique(store)
    ensures PairsUnique(store)
  {
    forall p, q | p in store && q in store && p != q
      ensures (store[p].identifier, store[p].locale) != (store[q].identifier, store[q].locale)
    {
      assert store[p].identifier != store[q].identifier;
    }
  }

  datatype StoreError = IdentifierTaken

  /** Saving a row under `pk` (insert or update); the table's unique
      constraint on `identifier` refuses a value another row already holds. */
  function Save(store: TemplateStore, pk: TemplateId, t: MailTemplate): (r: Result<TemplateStore, StoreError>)
    ensures r.Ok? <==> forall q :: q in store && q != pk ==> store[q].identifier != t.identifier
    ensures r.Ok? ==> r.value.Keys == store.Keys + {pk} && r.value[pk] == t
    ensures r.Ok? ==> forall q :: q in store && q != pk ==> r.value[q] == store[q]
  {
    if exists q :: q in store && q != pk && store[q].identifier == t.identifier then Err(IdentifierTaken)
    else Ok(store[pk := t])
  }

  lemma {:induction false} SavePreservesUniqueIdentifiers(store: TemplateStore, pk: TemplateId, t: MailTemplate)
    requires IdentifiersUnique(store)
    ensures Save(store, pk, t).Ok? ==> IdentifiersUnique(Save(store, pk, t).value)
  {
    var r := Save(store, pk, t);
    if r.Ok? {
      var s' := r.value;
      forall p, q | p in s' && q in s' && p != q
        ensures s'[p].identifier != s'[q].identifier
      {
        if p != pk && q != pk {
          assert s'[p] == store[p] && s'[q] == store[q];
        }
      }
    }
  }

  /** The rows whose parent lies in `s`. */
  function Children(store: TemplateStore, s: set<TemplateId>): (c: set<TemplateId>)
    ensures c <= store.Keys
    ensures forall t :: t in c <==> t in store && store[t].parent.Some? && store[t].parent.value in s
  {
    set t | t in store && store[t].parent.Some? && store[t].parent.value in s
  }

  lemma {:induction false} ProperSubsetSmaller(a: set<TemplateId>, b: set<TemplateId>)
    requires a < b
    ensures |a| < |b|
  {
    var x :| x in b && x !in a;
    SubsetNotLarger(a, b - {x});
  }

  lemma {:induction false} SubsetNotLarger(a: set<TemplateId>, b: set<TemplateId>)
    requires a <= b
    ensures |a| <= |b|
    decreases |a|
  {
    if a != {} {
      var x :| x in a;
      SubsetNotLarger(a - {x}, b - {x});
    }
  }

  /** `s` together with every row that descends from it along `parent`:
      the rows a cascading delete of `s` removes. */
  function Descendants(store: TemplateStore, s: set<TemplateId>): (c: set<TemplateId>)
    requires s <= store.Keys
    ensures s <= c <= store.Keys
    ensures Children(store, c) <= c
    ensures forall t :: t in c ==> t in s || (store[t].parent.Some? && store[t].parent.value in c)
    decreases |store.Keys - s|
  {
    var next := s + Children(store, s);
    if next == s then s
    else
      ProperSubsetSmaller(store.Keys - next, store.Keys - s);
      Descendants(store, next)
  }

  /** `Children` only grows with its argument. */
  lemma {:induction false} ChildrenMonotone(store: TemplateStore, a: set<TemplateId>, b: set<TemplateId>)
    requires a <= b
    ensures Children(store, a) <= Children(store, b)
  {
  }

  /** The closure is the least one: any set of rows that contains the start
      set and is closed under children contains every descendant. A row
      that is its own parent but is not reached from the start set is
      therefore left out. */
  lemma {:induction false} DescendantsLeast(store: TemplateStore, s: set<TemplateId>, d: set<TemplateId>)
    requires s <= d <= store.Keys
    requires Children(store, d) <= d
    ensures Descendants(store, s) <= d
    decreases |store.Keys - s|
  {
    var next := s + Children(store, s);
    ChildrenMonotone(store, s, d);
    if next != s {
      ProperSubsetSmaller(store.Keys - next, store.Keys - s);
      DescendantsLeast(store, next, d);
    }
  }

  /** Deleting a template (`on_delete=CASCADE`): the row and all of its
      descendants go, every other row stays as it was. */
  function Delete(store: TemplateStore, id: TemplateId): (r: TemplateStore)
  {
    if id !in store then store else store - Descendants(store, {id})
  }

  lemma {:induction false} DeleteCascades(store: TemplateStore, id: TemplateId)
    requires id in store
    ensures id !in Delete(store, id)
    ensures forall t :: t in store && store[t].parent == Some(id) ==> t !in Delete(store, id)
    ensures forall t :: t in Delete(store, id) ==> t in store && Delete(store, id)[t] == store[t]
    ensures forall t :: t in store && t !in Descendants(store, {id}) ==> t in Delete(store, id)
    ensures forall t :: t in Delete(store, id) ==> t !in Descendants(store, {id})
    ensures ParentsExist(store) ==> ParentsExist(Delete(store, id))
  {
    var d := Descendants(store, {id});
    var r := Delete(store, id);
    assert r == store - d;
    forall t | t in store && store[t].parent == Some(id)
      ensures t !in r
    {
      assert t in Children(store, d);
    }
    if ParentsExist(store) {
      forall t | t in r && r[t].parent.Some?
        ensures r[t].parent.value in r
      {
        assert t !in Children(store, d);
      }
    }
  }
}

=== FILE: text.dfy ===
/** String utilities the service relies on from Python: whitespace splitting
    (`str.split()` / `bytes.split()` with no argument), `str.strip()`, ASCII
    lower-casing, joining with a single space, and `str.replace`. */
module Text {
  import Common

  /** Whitespace recognised by `bytes.split()`: space, tab, line feed,
      vertical tab, form feed and carriage return. */
  predicate IsAsciiSpace(c: char)
  {
    c == ' ' || ('\t' <= c <= '\r')
  }

  /** Whitespace recognised by `str.split()`: the ASCII set, the ASCII
      information separators and the Unicode space characters. */
  predicate IsUnicodeSpace(c: char)
  {
    || IsAsciiSpace(c)
    || ('\U{1C}' <= c <= '\U{1F}')
    || c == '\U{85}' || c == '\U{A0}' || c == '\U{1680}'
    || ('\U{2000}' <= c <= '\U{200A}')
    || c == '\U{2028}' || c == '\U{2029}' || c == '\U{202F}'
    || c == '\U{205F}' || c == '\U{3000}'
  }

  predicate NoSpace(w: string, space: char -> bool)
  {
    forall i :: 0 <= i < |w| ==> !space(w[i])
  }

  /** The longest prefix of `s` that holds no whitespace. */
  function FirstWord(s: string, space: char -> bool): (w: string)
    ensures |w| <= |s| && w == s[..|w|]
    ensures NoSpace(w, space)
    ensures |w| < |s| ==> space(s[|w|])
  {
    if s == [] || space(s[0]) then []
    else [s[0]] + FirstWord(s[1..], space)
  }

  /** Python's argument-less `split()`: the maximal runs of non-whitespace
      characters, in order; leading, trailing and repeated whitespace produce
      no empty pieces. */
  function Split(s: string, space: char -> bool): (r: seq<string>)
    ensures forall i :: 0 <= i < |r| ==> r[i] != [] && NoSpace(r[i], space)
    decreases |s|
  {
    if s == [] then []
    else if space(s[0]) then Split(s[1..], space)
    else
      var w := FirstWord(s, space);
      [w] + Split(s[|w|..], space)
  }

  /** `set(s.split())`. */
  function Words(s: string, space: char -> bool): set<string>
  {
    set i | 0 <= i < |Split(s, space)| :: Split(s, space)[i]
  }

  /** `" ".join(xs)`. */
  function JoinSpace(xs: seq<string>): string
  {
    if |xs| == 0 then ""
    else if |xs| == 1 then xs[0]
    else xs[0] + " " + JoinSpace(xs[1..])
  }

  lemma {:induction false} FirstWordStopsAtSpace(a: string, c: char, b: string, space: char -> bool)
    requires space(c)
    ensures FirstWord(a + [c] + b, space) == FirstWord(a, space)
    decreases |a|
  {
    if a == [] {
      assert (a + [c] + b)[0] == c;
    } else if space(a[0]) {
      assert (a + [c] + b)[0] == a[0];
    } else {
      assert (a + [c] + b)[0] == a[0];
      assert (a + [c] + b)[1..] == a[1..] + [c] + b;
      FirstWordStopsAtSpace(a[1..], c, b, space);
    }
  }

  /** Splitting two texts glued by one whitespace character gives the pieces
      of the first followed by the pieces of the second. */
  lemma {:induction false} SplitAtSpace(a: string, c: char, b: string, space: char -> bool)
    requires space(c)
    ensures Split(a + [c] + b, space) == Split(a, space) + Split(b, space)
    decreases |a|
  {
    var s := a + [c] + b;
    if a == [] {
      assert s[0] == c && s[1..] == b;
    } else if space(a[0]) {
      assert s[0] == a[0];
      assert s[1..] == a[1..] + [c] + b;
      SplitAtSpace(a[1..], c, b, space);
    } else {
      assert s[0] == a[0];
      FirstWordStopsAtSpace(a, c, b, space);
      var w := FirstWord(a, space);
      assert |w| > 0;
      assert s[|w|..] == a[|w|..] + [c] + b;
      SplitAtSpace(a[|w|..], c, b, space);
    }
  }

  /** A text without whitespace splits into itself alone. */
  lemma {:induction false} SplitSingleWord(w: string, space: char -> bool)
    requires w != [] && NoSpace(w, space)
    ensures Split(w, space) == [w]
  {
    assert !space(w[0]);
    FirstWordWhole(w, space);
    assert w[|w|..] == [];
  }

  lemma {:induction false} FirstWordWhole(w: string, space: char -> bool)
    requires NoSpace(w, space)
    ensures FirstWord(w, space) == w
    decreases |w|
  {
    if w != [] {
      assert !space(w[0]);
      assert NoSpace(w[1..], space) by {
        forall i | 0 <= i < |w[1..]| ensures !space(w[1..][i]) {
          assert w[1..][i] == w[i + 1];
        }
      }
      FirstWordWhole(w[1..], space);
    }
  }

  /** Every word of every joined piece is a word of the joined text. */
  lemma {:induction false} JoinSpaceKeepsWords(xs: seq<string>, space: char -> bool)
    requires space(' ')
    ensures forall i, w :: 0 <= i < |xs| && w in Words(xs[i], space) ==> w in Words(JoinSpace(xs), space)
  {
    if |xs| <= 1 {
    } else {
      var rest := JoinSpace(xs[1..]);
      JoinSpaceKeepsWords(xs[1..], space);
      assert xs[0] + " " + rest == xs[0] + [' '] + rest;
      SplitAtSpace(xs[0], ' ', rest, space);
      var all := Split(JoinSpace(xs), space);
      assert all == Split(xs[0], space) + Split(rest, space);
      forall i, w | 0 <= i < |xs| && w in Words(xs[i], space)
        ensures w in Words(JoinSpace(xs), space)
      {
        if i == 0 {
          var k :| 0 <= k < |Split(xs[0], space)| && Split(xs[0], space)[k] == w;
          assert all[k] == w;
        } else {
          assert xs[i] == xs[1..][i - 1];
          assert w in Words(rest, space);
          var k :| 0 <= k < |Split(rest, space)| && Split(rest, space)[k] == w;
          assert all[|Split(xs[0], space)| + k] == w;
        }
      }
    }
  }

  /** ASCII lower-casing, as `bytes.lower()` does. */
  function LowerChar(c: char): (d: char)
    ensures !('A' <= d <= 'Z')
    ensures !('A' <= c <= 'Z') ==> d == c
  {
    if 'A' <= c <= 'Z' then (c as int - 'A' as int + 'a' as int) as char else c
  }

  function Lower(s: string): (r: string)
    ensures |r| == |s|
    ensures forall i :: 0 <= i < |s| ==> r[i] == LowerChar(s[i])
  {
    if s == [] then [] else [LowerChar(s[0])] + Lower(s[1..])
  }

  /** Lower-casing twice is lower-casing once. */
  lemma {:induction false} LowerIdempotent(s: string)
    ensures Lower(Lower(s)) == Lower(s)
  {
    var once := Lower(s);
    forall i | 0 <= i < |s| ensures Lower(once)[i] == once[i] {
      assert once[i] == LowerChar(s[i]);
    }
  }

  /** `s.lstrip()`: leading whitespace removed. */
  function StripStart(s: string): (r: string)
    ensures |r| <= |s| && r == s[|s| - |r|..]
    ensures r == [] || !IsUnicodeSpace(r[0])
    ensures forall i :: 0 <= i < |s| - |r| ==> IsUnicodeSpace(s[i])
    decreases |s|
  {
    if s != [] && IsUnicodeSpace(s[0]) then StripStart(s[1..]) else s
  }

  /** `s.rstrip()`: trailing whitespace removed. */
  function StripEnd(s: string): (r: string)
    ensures |r| <= |s| && r == s[..|r|]
    ensures r == [] || !IsUnicodeSpace(r[|r| - 1])
    ensures forall i :: |r| <= i < |s| ==> IsUnicodeSpace(s[i])
    decreases |s|
  {
    if s != [] && IsUnicodeSpace(s[|s| - 1]) then StripEnd(s[..|s| - 1]) else s
  }

  /** `s.strip()`: the text without surrounding whitespace. It is empty
      exactly when the text is all whitespace, and otherwise starts and
      ends with a non-space character. */
  function Strip(s: string): (r: string)
    ensures |r| <= |s|
    ensures r == [] || (!IsUnicodeSpace(r[0]) && !IsUnicodeSpace(r[|r| - 1]))
    ensures r == [] <==> forall i :: 0 <= i < |s| ==> IsUnicodeSpace(s[i])
  {
    StripEmptyIffSpaces(s);
    StripEnd(StripStart(s))
  }

  lemma {:induction false} StripEmptyIffSpaces(s: string)
    ensures StripEnd(StripStart(s)) == [] <==> forall i :: 0 <= i < |s| ==> IsUnicodeSpace(s[i])
    ensures var r := StripEnd(StripStart(s));
      r == [] || (!IsUnicodeSpace(r[0]) && !IsUnicodeSpace(r[|r| - 1]))
  {
    var a := StripStart(s);
    var r := StripEnd(a);
    if r == [] {
      assert a == [];
    } else {
      assert r[0] == a[0];
      assert a[0] == s[|s| - |a|];
    }
  }

  /** An optional text field as a form field hands it on: stripped when
      present. */
  function StripOpt(v: Common.Option<string>): (r: Common.Option<string>)
    ensures r.None? <==> v.None?
    ensures v.Some? ==> r.value == Strip(v.value)
  {
    if v.Some? then Common.Some(Strip(v.value)) else Common.None
  }

  /** A text without surrounding whitespace is its own strip. */
  lemma {:induction false} StripKeepsTrimmed(s: string)
    requires s == [] || (!IsUnicodeSpace(s[0]) && !IsUnicodeSpace(s[|s| - 1]))
    ensures Strip(s) == s
  {
    assert StripStart(s) == s;
    assert StripEnd(s) == s;
  }

  /** Stripping twice is stripping once. */
  lemma {:induction false} StripIdempotent(s: string)
    ensures Strip(Strip(s)) == Strip(s)
  {
    StripKeepsTrimmed(Strip(s));
  }

  /** `s.replace(pat, rep)`: every leftmost non-overlapping occurrence of
      `pat` is replaced. */
  function ReplaceAll(s: string, pat: string, rep: string): string
    requires pat != []
    decreases |s|
  {
    if |s| < |pat| then s
    else if s[..|pat|] == pat then rep + ReplaceAll(s[|pat|..], pat, rep)
    else [s[0]] + ReplaceAll(s[1..], pat, rep)
  }

  /** A text free of `pat`'s first character is copied as is, and the first
      occurrence after it is replaced. */
  lemma {:induction false} ReplaceAfterLiteral(lit: string, pat: string, rep: string, rest: string)
    requires pat != []
    requires pat[0] !in lit
    ensures ReplaceAll(lit + pat + rest, pat, rep) == lit + rep + ReplaceAll(rest, pat, rep)
    decreases |lit|
  {
    var s := lit + pat + rest;
    if lit == [] {
      assert s == pat + rest;
      assert s[..|pat|] == pat;
      assert s[|pat|..] == rest;
    } else {
      assert s[0] == lit[0] != pat[0];
      assert s[..|pat|] != pat;
      assert s[1..] == lit[1..] + pat + rest;
      ReplaceAfterLiteral(lit[1..], pat, rep, rest);
    }
  }

  /** A text holding no copy of `pat`'s first character is left unchanged. */
  lemma {:induction false} ReplaceWithoutOccurrence(s: string, pat: string, rep: string)
    requires pat != []
    requires pat[0] !in s
    ensures ReplaceAll(s, pat, rep) == s
    decreases |s|
  {
    if |s| < |pat| {
    } else {
      assert s[..|pat|][0] == s[0];
      assert s[..|pat|] != pat;
      ReplaceWithoutOccurrence(s[1..], pat, rep);
    }
  }
}
